=== FILE: README.md ===
# Project generator and snapshot committer, in Dafny

This project models the two tools of the `tmxatom/test` tool server that hold logic of their own.

- **`generateCode`** (`McpDay/tools/generate-code.js`) takes the text of an LLM completion and cleans it:
  - it trims the text;
  - it strips one leading "```json" or "```" fence and one trailing "```" fence;
  - it trims again.
  
  It then takes the greedy `{…}` span, parses it and builds the result with its summary. Finally it creates the project directory, hands the parsed `fileStructure` value to `createStructure` and writes the listed files.
- **`autoCommitAndPush`** (`mcp/tools/github-commit.js`) works in two stages.
  - It enumerates a local directory depth first with `getAllFiles`. Names on a fixed ignore list are skipped, and relative paths get `\` replaced by `/`.
  - It then uploads one blob per file, creates a tree over the head commit's tree and a commit whose only parent is that head, and moves the branch to it.

Modules:

- `Wrappers` (wrappers.dfy): `Option` and `Result`.
- `Paths` (paths.dfy): paths as sequences of segments. `path.join` is concatenation.
- `ResponseText` (response_text.dfy): `String.prototype.trim`, fence stripping and the regex `/\{[\s\S]*\}/`. These are pure functions with lemmas about them.
- `FileSystemModel` (file_system.dfy): the local file system, made of a set of directories and a map from file path to content.
  - Its state is a `FileSystem` object.
  - `fs.ensureDir`, `fs.ensureFile` and `fs.outputFile` are its methods.
  - `createStructure` (a recursive method with a loop) and `writeFiles` (a loop) are each proved equal to a specification function: `Materialize` and `WriteAll`.
- `ProjectGenerator` (generate_code.dfy): the pure result builder `BuildResult` and the methods `GenerateProject` and `GenerateCode`. `GenerateProject` is proved equal to the function `ProjectOutcome`, and `GenerateCode` to the function `Generate`.
- `FileWalk` (file_walk.dfy): `getAllFiles` over a directory-tree datatype. It threads an accumulator through its recursion, like the source. It is proved equal to `Walk`. `Walk` is proved sound, complete and duplicate-free against an independent reachability predicate. Its depth-first listing order is proved about `Walk` itself (`WalkAppend`, `DirectoryInPlace`).
- `GithubCommit` (github_commit.dfy): the remote repository as a `Remote` object holding refs, commits, trees and blobs. Its Git-data calls are methods. `AutoCommitAndPush` is proved equal to the function `Push`, whose properties are lemmas.

Nothing is read from the environment or the network.
- The API key, the completion text, the JSON parser, the directory listing, the file contents and the remote's sha oracles are all parameters.
- The remote's state is an object.

Where the code does something other than what a caller of these tools might expect, the model follows the code:
- **Span extraction.** A reader might expect the first balanced top-level `{…}` span, found by scanning. The code takes the greedy regex match instead: from the first `{` to the last `}` after it.
- **Structure.** A caller might expect the described tree to be materialized. The code passes the whole `fileStructure` array to `createStructure`, which does nothing for an array. Only the project directory and the listed files are created (`ArrayStructureCreatesNothing`).
- **Partial results.** A caller might expect each operation to succeed or fail as a whole. It does not.
  - A parsed object without `fileStructure` (or with `null` there) makes `createStructure` read `type` of `undefined`. That throws after the project directory has been created, so the directory is left behind and no file is written (`MissingStructureLeavesProjectDir`).
  - In the model, a blob upload followed by a refused `createTree` leaves the blobs on the remote.
  - A file-system failure part way through is not modelled.
- **Conflicts.** A caller might expect a conflict error when the branch moves concurrently. The code has no such check.

## Model

| member | source | states |
|---|---|---|
| ResponseText.LeadingCount | McpDay/tools/generate-code.js:91 | the count is the length of the longest all-whitespace prefix |
| ResponseText.TrailingCount | McpDay/tools/generate-code.js:91 | the count is the length of the longest all-whitespace suffix |
| ResponseText.TrimSpec | McpDay/tools/generate-code.js:91 | `trim` removes a whitespace prefix and a whitespace suffix, and the result neither starts nor ends with whitespace |
| ResponseText.TrimUnique | McpDay/tools/generate-code.js:91 | any such trimmed infix of the text is the one `trim` returns |
| ResponseText.TrimIdempotent | McpDay/tools/generate-code.js:103 | trimming a trimmed text changes nothing |
| ResponseText.TrimPadded | McpDay/tools/generate-code.js:91 | whitespace around a trimmed core is removed and the core is kept intact |
| ResponseText.StripLeadingFenceSpec | McpDay/tools/generate-code.js:93-97 | the result is a suffix of the text. Exactly 7 characters are removed iff the text starts with "```json", exactly 3 iff it starts with "```" but not "```json", and none otherwise |
| ResponseText.StripTrailingFenceSpec | McpDay/tools/generate-code.js:99-101 | the result is a prefix of the text, and exactly 3 characters are removed iff the text ends with "```" |
| ResponseText.CleanIsTrimmed | McpDay/tools/generate-code.js:91-103 | the cleaned text is trimmed: no leading or trailing whitespace, and trimming it again is the identity |
| ResponseText.OneLeadingFenceOnly | McpDay/tools/generate-code.js:93-97 | only one leading fence is stripped: "```" + "```" + body cleans to "```" + body |
| ResponseText.IndexOf | McpDay/tools/generate-code.js:105 | the result is the first position of the character, or none when the character is absent |
| ResponseText.LastIndexOf | McpDay/tools/generate-code.js:105 | the result is the last position of the character, or none when the character is absent |
| ResponseText.MatchObject | McpDay/tools/generate-code.js:105-110 | no match iff no `{` precedes a `}`. A match is the contiguous substring from the leftmost `{` that has a `}` after it to the last `}`, so it starts with `{` and ends with `}` |
| ResponseText.MatchIgnoresSurroundings | McpDay/tools/generate-code.js:105 | commentary around the object that holds no `{` before it and no `}` after it is ignored, and the match is exactly the object |
| ResponseText.ExtractJson | McpDay/tools/generate-code.js:91-110 | the extraction fails iff the cleaned text has no `{` before a `}`, and an extracted span is braced |
| ResponseText.FencesStripped | McpDay/tools/generate-code.js:93-101 | "```json" + body + "```" loses exactly both fences |
| ResponseText.CleanFenced | McpDay/tools/generate-code.js:91-103 | an object inside a "```json" fence, with independent whitespace before the fence, between the fence and the object on each side, and after the closing fence, cleans to exactly the object |
| ResponseText.FencedObjectIsExtracted | McpDay/tools/generate-code.js:91-110 | the same fenced object, with independent whitespace on each side of it, is extracted exactly |
| ResponseText.UnfencedIsClean | McpDay/tools/generate-code.js:91-103 | a text with no outer whitespace that neither starts nor ends with a backtick is left unchanged by the cleaning |
| ResponseText.CommentedFenceIsExtracted | McpDay/tools/generate-code.js:91-110 | with commentary before "```json" and after the closing "```", no fence is stripped. The object is still extracted exactly when the outer commentary holds no braces, the text between the fence and the object holds no braces, and the text after the object holds no `}` |
| ResponseText.Trim | McpDay/tools/generate-code.js:91 | `String.prototype.trim`: drops the leading and trailing whitespace counts (its meaning is stated by `TrimSpec` and `TrimUnique`) |
| ResponseText.StripLeadingFence | McpDay/tools/generate-code.js:93-97 | drops "```json", else "```", from the front (stated by `StripLeadingFenceSpec`) |
| ResponseText.StripTrailingFence | McpDay/tools/generate-code.js:99-101 | drops one "```" from the end (stated by `StripTrailingFenceSpec`) |
| ResponseText.Clean | McpDay/tools/generate-code.js:91-103 | trim, strip the leading fence, strip the trailing fence, trim (stated by `CleanIsTrimmed`, `CleanFenced`, `UnfencedIsClean`) |
| Paths.PrefixesSpec | McpDay/tools/generate-code.js:139 | a path is among the directories `ensureDir` creates iff it is a non-empty prefix of the argument |
| Paths.Parent | McpDay/tools/generate-code.js:150 | the parent plus the last segment gives back the path |
| FileSystemModel.FileSystem.EnsureDir | McpDay/tools/generate-code.js:139 | the path and every directory above it exist, and the files are unchanged |
| FileSystemModel.FileSystem.EnsureFile | McpDay/tools/generate-code.js:150 | the parent directories exist. An absent file is created empty and an existing one keeps its content |
| FileSystemModel.FileSystem.OutputFile | McpDay/tools/generate-code.js:157 | the parent directories exist and the path holds exactly the content |
| FileSystemModel.AfterEnsureDir | McpDay/tools/generate-code.js:139 | the state after `fs.ensureDir` (stated by `EnsureDirEffect`) |
| FileSystemModel.AfterEnsureFile | McpDay/tools/generate-code.js:150 | the state after `fs.ensureFile` (stated by `EnsureFileEffect`) |
| FileSystemModel.AfterOutputFile | McpDay/tools/generate-code.js:157 | the state after `fs.outputFile` (stated by `OutputFileEffect`) |
| FileSystemModel.EnsureDirEffect | McpDay/tools/generate-code.js:139 | files are unchanged; every non-empty prefix of the path exists afterwards, and every new directory is such a prefix |
| FileSystemModel.ParentDirs | McpDay/tools/generate-code.js:150-157 | the parents made for a file are exactly its proper non-empty prefixes |
| FileSystemModel.EnsureFileEffect | McpDay/tools/generate-code.js:150 | the file set gains exactly the path, an absent file is created empty, existing files keep their content, and the only new directories are the path's missing proper prefixes, all of which exist afterwards |
| FileSystemModel.OutputFileEffect | McpDay/tools/generate-code.js:157 | the path holds exactly the content, every other file keeps its content, and the only new directories are the path's missing proper prefixes, all of which exist afterwards |
| FileSystemModel.ContentOrEmpty | McpDay/tools/generate-code.js:157 | the content written for an entry: its `content` when present and truthy, else the empty string |
| FileSystemModel.Materialize | McpDay/tools/generate-code.js:136-152 | the file system after `createStructure` of one node (stated by `MaterializeEffect`, `MaterializeIdempotent`, `MaterializeOnlyAdds`) |
| FileSystemModel.MaterializeAll | McpDay/tools/generate-code.js:141-145 | the same for the children, in order (stated by `MaterializeAllEffect`) |
| FileSystemModel.WriteAll | McpDay/tools/generate-code.js:154-159 | the file system after `writeFiles`, one `outputFile` per entry in order (stated by the `WriteAll…` lemmas) |
| FileSystemModel.CreateStructure | McpDay/tools/generate-code.js:136-152 | the new file-system state is `Materialize` of the old one: a directory is ensured and then its children are handled in order, a file is ensured, and anything else is skipped |
| FileSystemModel.WriteFiles | McpDay/tools/generate-code.js:154-159 | the new file-system state is `WriteAll` of the old one: each file is output in list order |
| FileSystemModel.MaterializeEffect | McpDay/tools/generate-code.js:136-152 | `createStructure` adds exactly the described directories (with their ancestors) and the described files, whatever the order of the calls |
| FileSystemModel.MaterializeAllEffect | McpDay/tools/generate-code.js:141-145 | the same holds for a sequence of children |
| FileSystemModel.MaterializeIdempotent | McpDay/tools/generate-code.js:136-152 | running `createStructure` twice leaves the same file system as running it once |
| FileSystemModel.MaterializeOnlyAdds | McpDay/tools/generate-code.js:136-152 | existing directories stay, existing files keep their content, and the described directories and files then exist, new files empty |
| FileSystemModel.OtherNodeChangesNothing | McpDay/tools/generate-code.js:137-152 | a node that is neither "directory" nor "file", an array included, changes nothing |
| FileSystemModel.StructureAllAppend | McpDay/tools/generate-code.js:142-144 | what a run of siblings describes is the union of what each part describes |
| FileSystemModel.SiblingOrderIrrelevant | McpDay/tools/generate-code.js:142-144 | swapping two runs of siblings gives the same file system |
| FileSystemModel.WriteAllLastWins | McpDay/tools/generate-code.js:154-159 | each `project/path` holds the content of the last entry with that path, or "" when that content is absent or falsy |
| FileSystemModel.WriteAllUntouched | McpDay/tools/generate-code.js:154-159 | a path not in the list keeps its presence and its content |
| FileSystemModel.WriteAllMakesParents | McpDay/tools/generate-code.js:157 | existing directories stay, and every directory above a written file exists |
| FileSystemModel.WriteAllNoOtherDirs | McpDay/tools/generate-code.js:157 | the only new directories are those above written files |
| FileSystemModel.NestedWriteExample | McpDay/tools/generate-code.js:156-157 | writing `a/b/c.txt` into an empty root creates `a` and `a/b` and stores the content |
| ProjectGenerator.BuildResult | McpDay/tools/generate-code.js:91-125 | the "No JSON object found in the respose" error happens iff the cleaned text has no `{…}` span, the parse error iff the span does not parse, the `files`-missing failure iff the parsed object has no `files`, and success iff it has them. On success the files, name, structure, setup instructions and notes come from the parsed object, `totalFiles` is the number of files, and language, framework and test flag echo the request |
| ProjectGenerator.Message | McpDay/tools/generate-code.js:9-107 | the texts of the two errors the module throws itself: "GEMINI KEY not found" (line 9) and "No JSON object found in the respose" (line 107) |
| ProjectGenerator.ApiKeyPresent | McpDay/tools/generate-code.js:6-10 | `!apiKey` is false: the key is set and not the empty string |
| ProjectGenerator.ProjectOutcome | McpDay/tools/generate-code.js:161-173 | the outcome of `generateProject`: a missing root or name fails first, a missing structure fails after `ensureDir`, otherwise structure then files (stated by `GenerateSucceeds`, `MissingStructureLeavesProjectDir`, `ArrayStructureCreatesNothing`) |
| ProjectGenerator.ProjectPath | McpDay/tools/generate-code.js:164 | the project path exists iff the root and the project name are present; it is then the directory named `projectName` directly inside the root |
| ProjectGenerator.Generate | McpDay/tools/generate-code.js:5-134 | the key check, then `BuildResult`, then `ProjectOutcome`, passing on the first error (stated by the lemmas above) |
| ProjectGenerator.MissingKeyFailsFirst | McpDay/tools/generate-code.js:6-10 | an absent or empty key fails with "GEMINI KEY not found", whatever the completion, and the file system is unchanged |
| ProjectGenerator.NoJsonObjectCreatesNothing | McpDay/tools/generate-code.js:105-127 | a cleaned text with no `{` before a `}` fails with the no-JSON error and creates nothing |
| ProjectGenerator.EarlyFailureCreatesNothing | McpDay/tools/generate-code.js:8-166 | every failure other than the structure's type error (the key, the JSON span, the parse, a missing `files`, a missing root or name) is raised before `ensureDir` and leaves the file system unchanged |
| ProjectGenerator.MissingStructureLeavesProjectDir | McpDay/tools/generate-code.js:137-168 | a parsed object without `fileStructure` fails with the type error of `node.type`; the directories afterwards are exactly the old ones plus the project directory and its ancestors, and no file changes |
| ProjectGenerator.GenerateSucceeds | McpDay/tools/generate-code.js:8-173 | with the key present, the call succeeds iff a root is given and the span parses into an object with `files`, a project name and a structure; the file system is then the structure materialized and the files written under `root/projectName` |
| ProjectGenerator.ArrayStructureCreatesNothing | McpDay/tools/generate-code.js:164-170 | because the `fileStructure` array is passed whole, only the project directory and the listed files are created |
| ProjectGenerator.SuccessWritesListedFiles | McpDay/tools/generate-code.js:112-170 | on success every listed path under `root/projectName` holds the content of its last entry, and `totalFiles` counts the returned files |
| ProjectGenerator.SuccessKeepsOtherFiles | McpDay/tools/generate-code.js:161-170 | on success a file outside the list keeps its content, and every existing directory stays |
| ProjectGenerator.GenerateProject | McpDay/tools/generate-code.js:161-173 | the result and new state are those of `ProjectOutcome`: ensure `root/projectName`, then `createStructure`, then `writeFiles`. A missing root or name fails and changes nothing; a missing structure fails after the project directory exists |
| ProjectGenerator.GenerateCode | McpDay/tools/generate-code.js:5-134 | the result and the new file system are those of `Generate`: the key check, then extraction and parsing, then project generation |
| FileWalk.ReplaceBackslashes | mcp/tools/github-commit.js:184 | no backslash remains, every backslash becomes `/`, and every other character stays |
| FileWalk.RelativePath | mcp/tools/github-commit.js:184 | `path.relative(basePath, filePath)` joined with `/`, then `\` replaced by `/` (stated by `RelativePathSplits`, `NoBackslashJoin`, `BackslashNameCollides`) |
| FileWalk.Walk | mcp/tools/github-commit.js:173-187 | what `getAllFiles` appends for a listing, entry by entry in order (stated by `WalkSound`, `WalkComplete`, `WalkUnique`, `WalkAppend`) |
| FileWalk.WalkEntry | mcp/tools/github-commit.js:174-186 | what one entry contributes: nothing when ignored, its walk when a directory, its file otherwise (stated by `EntrySound`, `EntryComplete`, `EntryUnique`) |
| FileWalk.GetAllFiles | mcp/tools/github-commit.js:156-194 | the returned array is the accumulator followed by the walk of the directory below the base path |
| FileWalk.Ignored | mcp/tools/github-commit.js:160-174 | membership in the ten fixed names (stated by `IgnoredDirectorySkipped`, `IgnoredFileSkipped`, `NothingIgnoredReturned`) |
| FileWalk.FileAt | mcp/tools/github-commit.js:182-185 | the element pushed for a file (stated by `FileAtShape`) |
| FileWalk.FileAtShape | mcp/tools/github-commit.js:182-185 | the pushed path is the base path followed by the file's path below it, and the relative path holds no backslash |
| FileWalk.WalkAppend | mcp/tools/github-commit.js:173-187 | entries are handled in listing order: the walk of two consecutive runs is the concatenation of their walks |
| FileWalk.DirectoryInPlace | mcp/tools/github-commit.js:179-180 | a subdirectory's files appear exactly where it is listed, between those of its earlier and its later siblings |
| FileWalk.IgnoredDirectorySkipped | mcp/tools/github-commit.js:174 | an ignored directory is never descended into: the result is as if it were absent |
| FileWalk.IgnoredFileSkipped | mcp/tools/github-commit.js:174-186 | three files with the middle one ignored give the other two, in order |
| FileWalk.WalkSound | mcp/tools/github-commit.js:173-187 | every returned element is a regular file reached through non-ignored directories, with its path and relative path |
| FileWalk.EntrySound | mcp/tools/github-commit.js:177-186 | the same, for one entry |
| FileWalk.WalkComplete | mcp/tools/github-commit.js:173-187 | every non-ignored regular file reached through non-ignored directories is returned |
| FileWalk.EntryComplete | mcp/tools/github-commit.js:177-186 | the same, for one entry |
| FileWalk.NothingIgnoredReturned | mcp/tools/github-commit.js:160-184 | no returned path has an ignored segment below the root, and no relative path holds a backslash |
| FileWalk.ReachesAvoidsIgnored | mcp/tools/github-commit.js:174 | a reachable file's path has no ignored segment |
| FileWalk.EntryPathsBelow | mcp/tools/github-commit.js:177 | each file an entry contributes lies below that entry |
| FileWalk.WalkPathsBelow | mcp/tools/github-commit.js:177 | each file a listing contributes lies below one of its entries |
| FileWalk.WalkUnique | mcp/tools/github-commit.js:173-187 | when each directory lists a name once, no path is returned twice |
| FileWalk.EntryUnique | mcp/tools/github-commit.js:179-180 | the same, for one entry |
| FileWalk.RelativePathSplits | mcp/tools/github-commit.js:184 | the relative path split at `/` gives back the segments below the root, when no name holds `/` or `\` |
| FileWalk.NoBackslashJoin | mcp/tools/github-commit.js:184 | without a backslash in any name, the replacement changes nothing |
| FileWalk.JoinSplits | mcp/tools/github-commit.js:184 | the segments joined with `/` split back into the segments |
| FileWalk.BackslashNameCollides | mcp/tools/github-commit.js:184 | a root file named `a\b` gets the same relative path `a/b` as the file `b` in the directory `a` |
| GithubCommit.Message | mcp/tools/github-commit.js:36-48 | the texts of the two errors the function throws itself: "Path does not exist: …" and "No files found to commit" |
| GithubCommit.CommitUrl | mcp/tools/github-commit.js:139 | the reported link `https://github.com/tmxatom/<repo>/commit/<sha>` |
| GithubCommit.RefName | mcp/tools/github-commit.js:57 | the ref `heads/<branch>` read by `getRef` and moved by `updateRef` (line 125) (stated by `RefNameInjective`) |
| GithubCommit.RefNameInjective | mcp/tools/github-commit.js:57 | two branches share a ref iff they are the same branch, so moving one branch's ref moves no other branch |
| GithubCommit.Push | mcp/tools/github-commit.js:21-152 | the result and remote after `autoCommitAndPush`: path checks, enumeration, empty check, ref and head lookup, then `Snapshot` (stated by `PushCommitsSnapshot`, `PushKeepsValid` and the failure lemmas) |
| GithubCommit.Snapshot | mcp/tools/github-commit.js:68-141 | the blob uploads and `createTree`, then `CommitTree` (stated by `SnapshotCommits`, `SnapshotKeepsValid`) |
| GithubCommit.CommitTree | mcp/tools/github-commit.js:106-141 | `createCommit` on the head, `updateRef`, then the success report (stated by `CommitTreeKeepsValid`) |
| GithubCommit.CreateBlobOn | mcp/tools/github-commit.js:78-83 | the returned sha is the hash of the content and the blob is stored under it; every other blob keeps its content, no other key appears, and refs, commits and trees are unchanged |
| GithubCommit.CreateTreeOn | mcp/tools/github-commit.js:101-106 | it succeeds iff the base tree and every listed blob exist. The new tree records the base tree and the entries, and a refusal changes nothing |
| GithubCommit.CreateCommitOn | mcp/tools/github-commit.js:111-117 | it succeeds iff the tree and every parent exist. The commit records the message, tree and parents, and a refusal changes nothing |
| GithubCommit.UpdateRefOn | mcp/tools/github-commit.js:122-127 | it succeeds iff the ref and the commit exist. Only that ref moves, and a refusal changes nothing |
| GithubCommit.CreateBlobKeepsValid | mcp/tools/github-commit.js:78-83 | blob creation keeps the remote consistent |
| GithubCommit.CreateTreeKeepsValid | mcp/tools/github-commit.js:101-106 | tree creation keeps the remote consistent |
| GithubCommit.CreateCommitKeepsValid | mcp/tools/github-commit.js:111-117 | commit creation keeps the remote consistent |
| GithubCommit.UpdateRefKeepsValid | mcp/tools/github-commit.js:122-127 | a ref update keeps the remote consistent |
| GithubCommit.BlobList | mcp/tools/github-commit.js:73-90 | the blob list has the length and order of the file list. Entry i has `path` = the i-th relative path, mode "100644", type "blob" and the sha of the i-th file's content |
| GithubCommit.AddBlobs | mcp/tools/github-commit.js:74-83 | after the uploads every file's sha is present and holds content that hashes to that sha. The blob keys are exactly the old keys plus the files' shas, and refs, commits and trees are unchanged |
| GithubCommit.FileShasStep | mcp/tools/github-commit.js:74-83 | the shas of a file list are those of all but its last file plus the last file's sha |
| GithubCommit.UploadStep | mcp/tools/github-commit.js:78-83 | one more `createBlob` extends the exact key set and the content-hash property from the earlier files to all of them |
| GithubCommit.AddBlobsKeepsValid | mcp/tools/github-commit.js:74-83 | the uploads keep the remote consistent |
| GithubCommit.AddBlobsStoresContents | mcp/tools/github-commit.js:74-83 | with a collision-free blob hash, each file's sha holds exactly that file's bytes after the uploads |
| GithubCommit.AddBlobsKeepsOthers | mcp/tools/github-commit.js:74-83 | a blob whose sha is none of the files' shas keeps its content |
| GithubCommit.MissingPathFailsFirst | mcp/tools/github-commit.js:35-37 | a path that does not exist fails before any enumeration or remote call |
| GithubCommit.NoFilesTouchesNothing | mcp/tools/github-commit.js:43-49 | an empty enumeration fails with "No files found to commit", and the remote is unchanged |
| GithubCommit.MissingBranchTouchesNothing | mcp/tools/github-commit.js:54-59 | a branch the remote lacks fails before any blob upload, and the remote is unchanged |
| GithubCommit.SuccessNeedsFilesAndBranch | mcp/tools/github-commit.js:35-59 | success implies an existing directory, a non-empty enumeration and an existing branch |
| GithubCommit.PushCommitsSnapshot | mcp/tools/github-commit.js:54-141 | on a consistent remote the call succeeds. The new tree lays the blob list over the head commit's tree. The new commit's only parent is the head read from the branch. Only that branch moves, to the new commit. The blobs are those the uploads leave, and with a collision-free blob hash each tree entry's blob holds exactly its file's bytes. The result reports the sha, the `https://github.com/tmxatom/<repo>/commit/<sha>` link and the number of files |
| GithubCommit.SnapshotCommits | mcp/tools/github-commit.js:68-141 | from an existing ref, head and base tree, the upload, tree, commit and ref update all succeed. Only the new commit and tree are added, only the ref moves, and the blobs are exactly those the uploads leave (`AddBlobs`) |
| GithubCommit.ThreeFileListing | mcp/tools/github-commit.js:173-187 | a listing `a.js`, `.env`, `b.js` enumerates `a.js` then `b.js`, with their full and relative paths |
| GithubCommit.TwoBlobEntries | mcp/tools/github-commit.js:73-90 | that listing gives exactly two tree entries, `a.js` then `b.js`, each with mode "100644", type "blob" and its content's sha |
| GithubCommit.ThreeFilesOneIgnored | mcp/tools/github-commit.js:54-141 | three files with `.env` among them commit exactly two blobs, in listing order, on a commit whose only parent is the branch head; the result reports 2 files |
| GithubCommit.PushKeepsValid | mcp/tools/github-commit.js:21-152 | every outcome leaves a consistent remote consistent |
| GithubCommit.SnapshotKeepsValid | mcp/tools/github-commit.js:68-141 | every outcome of the upload, tree, commit and ref-update sequence, a refusal part way included, leaves a consistent remote consistent |
| GithubCommit.CommitTreeKeepsValid | mcp/tools/github-commit.js:106-141 | every outcome of the commit and ref update leaves a consistent remote consistent |
| GithubCommit.Remote.GetRef | mcp/tools/github-commit.js:54-59 | returns the ref's sha, or not-found |
| GithubCommit.Remote.GetCommit | mcp/tools/github-commit.js:63-68 | returns the commit, or not-found |
| GithubCommit.Remote.CreateBlob | mcp/tools/github-commit.js:78-83 | the new state and sha are those of `CreateBlobOn` |
| GithubCommit.Remote.CreateTree | mcp/tools/github-commit.js:101-106 | the new state and result are those of `CreateTreeOn` |
| GithubCommit.Remote.CreateCommit | mcp/tools/github-commit.js:111-117 | the new state and result are those of `CreateCommitOn` |
| GithubCommit.Remote.UpdateRef | mcp/tools/github-commit.js:122-127 | the new state and result are those of `UpdateRefOn` |
| GithubCommit.AutoCommitAndPush | mcp/tools/github-commit.js:21-152 | the result and the new remote state are those of `Push`, in the order: path check, enumeration, empty check, `getRef`, `getCommit`, blob loop, `createTree`, `createCommit`, `updateRef` |
| GithubCommit.UploadBlobs | mcp/tools/github-commit.js:68-91 | the collected entries are `BlobList` of the files, and the remote holds one more blob per file in order (`AddBlobs`) |
| GithubCommit.CommitAndMoveRef | mcp/tools/github-commit.js:106-141 | the result and the new remote state are those of `CommitTree`: `createCommit` on the head, then `updateRef`, then the success report |

## Left out

- The completion call and its prompt (McpDay/tools/generate-code.js lines 12-88) are not modelled. The response text is a parameter.
- `JSON.parse` is not modelled: it is an abstract partial parser `parse`. An absent or `null` `fileStructure` is modelled (`None`, which fails with `StructureTypeError`). A `files` value that is not an array is not modelled.
- ProjectGenerator.GenerateProject: a `files` entry that is `null` or has no string `path` makes `path.join` throw at line 156, after the project directory, the structure and the earlier files exist. A top-level `fileStructure` of type "directory" or "file" without a string `name` throws at line 138 or 149, after `ensureDir` at line 166 has created the project directory. Every modelled entry has a path and every modelled typed node a name, so these partial failures are not captured.
- FileSystemModel.CreateStructure: a `null` child inside `children` makes the recursive call throw at line 137, after the earlier siblings exist. A "directory" or "file" node whose `name` is not a string makes `path.join` throw at line 138 or 149, likewise after the earlier siblings exist. Every modelled `Directory` and `File` has a string name, and `Untyped` stands only for an object whose `type` is neither "directory" nor "file", so neither partial failure is captured.
- ProjectGenerator.EarlyFailureCreatesNothing: the TypeErrors of the two lines above happen after the first file-system change. This lemma covers the errors raised before line 166, and `MissingStructureLeavesProjectDir` covers the absent structure.
- The `InvalidJson`, `MissingFiles` and `InvalidPathArgument` errors carry no message text. The runtime writes those messages.
- `path.join` / `path.relative` normalisation (`.`, `..`, duplicate separators, absolute segments) is not modelled: paths are segment sequences joined by concatenation. For the same reason `writeFiles`' missing path-traversal guard cannot be exhibited: a `..` segment is kept literally.
- Failures of `fs-extra` are not modelled: a file where a directory is needed, permissions, full disks. The model's file system accepts every call.
- Symbolic links are not modelled. `getAllFiles` follows them through `statSync`, while the model's tree has only files and directories.
- `GithubCommit.Message`: the path in "Path does not exist: …" is printed by joining the segments with `/`.
- Reading file contents (`readFileSync`) is the parameter `read`. Base64 encoding of the contents is an identity on the bytes.
- FileWalk.GetAllFiles: a failing `fs.readdirSync` (mcp/tools/github-commit.js line 158) or `fs.statSync` (line 179), rethrown at line 192 and again at line 150, is not modelled: `Entry` and `Walk` are total. A directory removed or unreadable between the existence check and the walk is therefore not captured.
- GithubCommit.AutoCommitAndPush: a failing `fs.readFileSync` (line 76) is not modelled, since `read` is total. Such a failure would come after `getRef`, `getCommit` and the earlier `createBlob` calls, leaving orphan blobs on the remote and the branch unmoved; the model does not capture that partial state.
- Octokit authentication, network failures and HTTP status logging (mcp/tools/github-commit.js lines 7-9 and 143-149) are not modelled. A refused Git-data call is an `ApiError`.
- GitHub's refusal of a non-fast-forward `updateRef` is not modelled, and neither is any concurrent change of the branch. Calls are sequential, so the update is always a fast-forward in the model.
- The content of a tree is recorded as its base tree plus its entries. The overlay of the entries on the base tree's files is not computed.
- Console redirection and progress logging (mcp/tools/github-commit.js lines 10-19 and 93-95, and the `console.log` calls) are side output only.
- mcp/server.js (the tool-server wiring, which reads `rootpath` where `generateCode` reads `rootPath`) is not part of this model. mcp/tools/check-best-practices.js (a single completion call inside fixed text) is not part of this model either.
- Strings are sequences of code points. Lone UTF-16 surrogates are not modelled.

=== FILE: file_system.dfy ===
/**
 * The local file system as seen by the project generator
 * (McpDay/tools/generate-code.js, lines 136-159): a set of directory paths
 * and a map from file path to content. `createStructure` and `writeFiles`
 * are methods over a `FileSystem` object, each proved equal to a
 * specification function on `FsState` values; the properties of the
 * specification functions are lemmas.
 */
module FileSystemModel {
  import opened Wrappers
  import opened Paths

  /**
   * One node of a `fileStructure` description as parsed from the
   * completion. Only the `type` field decides what `createStructure` does:
   * "directory" and "file" nodes, a JSON array (which has no `type`), or any
   * other value whose `type` is something else. A directory without a
   * `children` field behaves like one with no children.
   */
  datatype Node =
    | Directory(name: string, children: seq<Node>)
    | File(name: string)
    | Array(items: seq<Node>)
    | Untyped

  /** One entry of the bundle's `files` list; `content` is `None` when absent or falsy. */
  datatype GeneratedFile = GeneratedFile(path: Path, content: Option<string>, description: string)

  /** `file.content || ""`. */
  function ContentOrEmpty(content: Option<string>): string {
    if content.Some? then content.value else ""
  }

  /** The abstract file system: directory paths, and file contents by path. */
  datatype FsState = FsState(dirs: set<Path>, files: map<Path, string>)

  /** `fs.ensureDir(p)`: `p` and every directory above it exist afterwards. */
  function AfterEnsureDir(s: FsState, p: Path): FsState {
    FsState(s.dirs + Prefixes(p), s.files)
  }

  /** `fs.ensureFile(p)`: the parent directories exist; an absent file is created empty, an existing one kept. */
  function AfterEnsureFile(s: FsState, p: Path): FsState {
    FsState(s.dirs + Prefixes(Parent(p)), if p in s.files then s.files else s.files[p := ""])
  }

  /** `fs.outputFile(p, content)`: the parent directories exist and `p` holds `content`. */
  function AfterOutputFile(s: FsState, p: Path, content: string): FsState {
    FsState(s.dirs + Prefixes(Parent(p)), s.files[p := content])
  }

  /** `ensureDir` creates exactly the missing non-empty prefixes of `p` and touches no file. */
  lemma EnsureDirEffect(s: FsState, p: Path)
    ensures var r := AfterEnsureDir(s, p);
      && r.files == s.files && s.dirs <= r.dirs
      && (forall k :: 0 < k <= |p| ==> p[..k] in r.dirs)
      && (forall q :: q in r.dirs && q !in s.dirs ==> 0 < |q| <= |p| && q == p[..|q|])
  {
    forall q | q in Prefixes(p)
      ensures 0 < |q| <= |p| && q == p[..|q|]
    {
      PrefixesSpec(p, q);
    }
  }

  /** The directories `ensureFile` and `outputFile` create: exactly the missing proper prefixes of `p`. */
  lemma ParentDirs(s: FsState, p: Path)
    ensures var d := s.dirs + Prefixes(Parent(p));
      && (forall k :: 0 < k < |p| ==> p[..k] in d)
      && (forall q :: q in d && q !in s.dirs ==> 0 < |q| < |p| && q == p[..|q|])
  {
    forall k | 0 < k < |p|
      ensures p[..k] in Prefixes(Parent(p))
    {
      assert Parent(p)[..k] == p[..k];
    }
    forall q | q in Prefixes(Parent(p))
      ensures 0 < |q| < |p| && q == p[..|q|]
    {
      PrefixesSpec(Parent(p), q);
    }
  }

  /** `ensureFile` adds `p` empty when it is absent, keeps every existing file, and creates only `p`'s missing parents. */
  lemma EnsureFileEffect(s: FsState, p: Path)
    ensures var r := AfterEnsureFile(s, p);
      && r.files.Keys == s.files.Keys + {p}
      && (forall q :: q in s.files ==> r.files[q] == s.files[q])
      && (p !in s.files ==> r.files[p] == "")
      && s.dirs <= r.dirs
      && (forall k :: 0 < k < |p| ==> p[..k] in r.dirs)
      && (forall q :: q in r.dirs && q !in s.dirs ==> 0 < |q| < |p| && q == p[..|q|])
  {
    ParentDirs(s, p);
  }

  /** `outputFile` makes `p` hold `content`, keeps every other file, and creates only `p`'s missing parents. */
  lemma OutputFileEffect(s: FsState, p: Path, content: string)
    ensures var r := AfterOutputFile(s, p, content);
      && r.files.Keys == s.files.Keys + {p} && r.files[p] == content
      && (forall q :: q in s.files && q != p ==> r.files[q] == s.files[q])
      && s.dirs <= r.dirs
      && (forall k :: 0 < k < |p| ==> p[..k] in r.dirs)
      && (forall q :: q in r.dirs && q !in s.dirs ==> 0 < |q| < |p| && q == p[..|q|])
  {
    ParentDirs(s, p);
  }

  /** The file system after `createStructure(base, node)` (lines 136-152). */
  function Materialize(s: FsState, base: Path, node: Node): FsState
    decreases node
  {
    match node
    case Directory(name, children) =>
      MaterializeAll(AfterEnsureDir(s, base + [name]), base + [name], children)
    case File(name) => AfterEnsureFile(s, base + [name])
    case Array(_) => s
    case Untyped => s
  }

  /** The file system after `createStructure(base, child)` for each child in turn (lines 142-144). */
  function MaterializeAll(s: FsState, base: Path, nodes: seq<Node>): FsState
    decreases nodes
  {
    if nodes == [] then s
    else Materialize(MaterializeAll(s, base, nodes[..|nodes| - 1]), base, nodes[|nodes| - 1])
  }

  /** The file system after `writeFiles(project, files)` (lines 154-159). */
  function WriteAll(s: FsState, project: Path, files: seq<GeneratedFile>): FsState
  {
    if files == [] then s
    else
      var last := files[|files| - 1];
      AfterOutputFile(WriteAll(s, project, files[..|files| - 1]), project + last.path, ContentOrEmpty(last.content))
  }

  /** Writing one more file of the list is one more `outputFile`. */
  lemma WriteAllStep(s: FsState, project: Path, files: seq<GeneratedFile>, i: nat)
    requires i < |files|
    ensures WriteAll(s, project, files[..i + 1])
         == AfterOutputFile(WriteAll(s, project, files[..i]), project + files[i].path, ContentOrEmpty(files[i].content))
  {
    assert files[..i + 1][..i] == files[..i];
  }

  // ---------------------------------------------------------------------
  // What a description creates, independently of the order of the calls.

  /** Add directories `ds` and empty files `fs`, keeping the content of files that exist. */
  function Apply(s: FsState, ds: set<Path>, fs: set<Path>): FsState {
    FsState(s.dirs + ds, map p | p in s.files.Keys + fs :: if p in s.files then s.files[p] else "")
  }

  /** The directories a node description asks for, with every directory above them. */
  function StructureDirs(base: Path, node: Node): set<Path>
    decreases node
  {
    match node
    case Directory(name, children) => Prefixes(base + [name]) + StructureDirsAll(base + [name], children)
    case File(name) => Prefixes(base)
    case Array(_) => {}
    case Untyped => {}
  }

  function StructureDirsAll(base: Path, nodes: seq<Node>): set<Path>
    decreases nodes
  {
    if nodes == [] then {}
    else StructureDirsAll(base, nodes[..|nodes| - 1]) + StructureDirs(base, nodes[|nodes| - 1])
  }

  /** The files a node description asks for. */
  function StructureFiles(base: Path, node: Node): set<Path>
    decreases node
  {
    match node
    case Directory(name, children) => StructureFilesAll(base + [name], children)
    case File(name) => {base + [name]}
    case Array(_) => {}
    case Untyped => {}
  }

  function StructureFilesAll(base: Path, nodes: seq<Node>): set<Path>
    decreases nodes
  {
    if nodes == [] then {}
    else StructureFilesAll(base, nodes[..|nodes| - 1]) + StructureFiles(base, nodes[|nodes| - 1])
  }

  lemma ApplyCompose(s: FsState, d1: set<Path>, f1: set<Path>, d2: set<Path>, f2: set<Path>)
    ensures Apply(Apply(s, d1, f1), d2, f2) == Apply(s, d1 + d2, f1 + f2)
  {
    var l, r := Apply(Apply(s, d1, f1), d2, f2), Apply(s, d1 + d2, f1 + f2);
    assert l.files.Keys == r.files.Keys;
    assert l.dirs == r.dirs;
  }

  lemma ApplyNothing(s: FsState)
    ensures Apply(s, {}, {}) == s
  {
    var r := Apply(s, {}, {});
    assert r.files.Keys == s.files.Keys;
  }

  /**
   * `createStructure` adds exactly the directories and empty files the
   * description names, never touching existing content.
   */
  lemma {:induction false} MaterializeEffect(s: FsState, base: Path, node: Node)
    ensures Materialize(s, base, node) == Apply(s, StructureDirs(base, node), StructureFiles(base, node))
    decreases node
  {
    match node
    case Directory(name, children) =>
      var p := base + [name];
      var s1 := AfterEnsureDir(s, p);
      assert s1 == Apply(s, Prefixes(p), {}) by { assert Apply(s, Prefixes(p), {}).files.Keys == s.files.Keys; }
      MaterializeAllEffect(s1, p, children);
      ApplyCompose(s, Prefixes(p), {}, StructureDirsAll(p, children), StructureFilesAll(p, children));
      assert {} + StructureFilesAll(p, children) == StructureFilesAll(p, children);
    case File(name) =>
      var p := base + [name];
      assert Parent(p) == base;
      var r := Apply(s, Prefixes(base), {p});
      assert r.files.Keys == s.files.Keys + {p};
    case Array(_) => ApplyNothing(s);
    case Untyped => ApplyNothing(s);
  }

  lemma {:induction false} MaterializeAllEffect(s: FsState, base: Path, nodes: seq<Node>)
    ensures MaterializeAll(s, base, nodes) == Apply(s, StructureDirsAll(base, nodes), StructureFilesAll(base, nodes))
    decreases nodes
  {
    if nodes == [] {
      ApplyNothing(s);
    } else {
      var init, last := nodes[..|nodes| - 1], nodes[|nodes| - 1];
      MaterializeAllEffect(s, base, init);
      var s1 := MaterializeAll(s, base, init);
      MaterializeEffect(s1, base, last);
      ApplyCompose(s, StructureDirsAll(base, init), StructureFilesAll(base, init),
                   StructureDirs(base, last), StructureFiles(base, last));
    }
  }

  /** Running `createStructure` twice leaves the same file system as running it once. */
  lemma MaterializeIdempotent(s: FsState, base: Path, node: Node)
    ensures Materialize(Materialize(s, base, node), base, node) == Materialize(s, base, node)
  {
    var ds, fs := StructureDirs(base, node), StructureFiles(base, node);
    MaterializeEffect(s, base, node);
    MaterializeEffect(Apply(s, ds, fs), base, node);
    ApplyCompose(s, ds, fs, ds, fs);
    assert ds + ds == ds && fs + fs == fs;
  }

  /**
   * `createStructure` only adds: directories stay, files keep their
   * content, and afterwards the described directories and files exist.
   */
  lemma MaterializeOnlyAdds(s: FsState, base: Path, node: Node)
    ensures var r := Materialize(s, base, node);
      && r.dirs == s.dirs + StructureDirs(base, node)
      && r.files.Keys == s.files.Keys + StructureFiles(base, node)
      && (forall p :: p in s.files ==> r.files[p] == s.files[p])
      && (forall p :: p in StructureFiles(base, node) && p !in s.files ==> r.files[p] == "")
  {
    MaterializeEffect(s, base, node);
  }

  /** A node whose `type` is neither "directory" nor "file", an array included, changes nothing. */
  lemma OtherNodeChangesNothing(s: FsState, base: Path, node: Node)
    requires node.Array? || node.Untyped?
    ensures Materialize(s, base, node) == s
  {
  }

  /** The order of sibling nodes does not change the resulting file system. */
  lemma {:induction false} StructureAllAppend(base: Path, xs: seq<Node>, ys: seq<Node>)
    ensures StructureDirsAll(base, xs + ys) == StructureDirsAll(base, xs) + StructureDirsAll(base, ys)
    ensures StructureFilesAll(base, xs + ys) == StructureFilesAll(base, xs) + StructureFilesAll(base, ys)
    decreases ys
  {
    if ys == [] {
      assert xs + ys == xs;
    } else {
      var init := ys[..|ys| - 1];
      StructureAllAppend(base, xs, init);
      assert (xs + ys)[..|xs + ys| - 1] == xs + init;
    }
  }

  lemma SiblingOrderIrrelevant(s: FsState, base: Path, xs: seq<Node>, ys: seq<Node>)
    ensures MaterializeAll(s, base, xs + ys) == MaterializeAll(s, base, ys + xs)
  {
    MaterializeAllEffect(s, base, xs + ys);
    MaterializeAllEffect(s, base, ys + xs);
    StructureAllAppend(base, xs, ys);
    StructureAllAppend(base, ys, xs);
  }

  // ---------------------------------------------------------------------
  // What `writeFiles` leaves behind.

  /**
   * Every listed path holds the content of the last entry with that path
   * (or "" when that entry's content is absent or falsy).
   */
  lemma {:induction false} WriteAllLastWins(s: FsState, project: Path, files: seq<GeneratedFile>, i: nat)
    requires i < |files|
    requires forall j :: i < j < |files| ==> files[j].path != files[i].path
    ensures var r := WriteAll(s, project, files);
      project + files[i].path in r.files && r.files[project + files[i].path] == ContentOrEmpty(files[i].content)
    decreases files
  {
    var init := files[..|files| - 1];
    if i < |files| - 1 {
      WriteAllLastWins(s, project, init, i);
      var last := files[|files| - 1];
      assert last.path != files[i].path;
      assert (project + last.path)[|project|..] == last.path;
      assert (project + files[i].path)[|project|..] == files[i].path;
    }
  }

  /** Paths not in the list keep exactly what they held before. */
  lemma {:induction false} WriteAllUntouched(s: FsState, project: Path, files: seq<GeneratedFile>, q: Path)
    requires forall j :: 0 <= j < |files| ==> project + files[j].path != q
    ensures var r := WriteAll(s, project, files);
      && (q in r.files <==> q in s.files)
      && (q in s.files ==> r.files[q] == s.files[q])
    decreases files
  {
    if files != [] {
      WriteAllUntouched(s, project, files[..|files| - 1], q);
    }
  }

  /** Existing directories stay, and the directories above every written file exist. */
  lemma {:induction false} WriteAllMakesParents(s: FsState, project: Path, files: seq<GeneratedFile>, j: nat)
    requires j < |files|
    ensures var r := WriteAll(s, project, files);
      s.dirs <= r.dirs && Prefixes(Parent(project + files[j].path)) <= r.dirs
    decreases files
  {
    var init := files[..|files| - 1];
    var last := files[|files| - 1];
    var before := WriteAll(s, project, init);
    var after := AfterOutputFile(before, project + last.path, ContentOrEmpty(last.content));
    assert WriteAll(s, project, files) == after;
    assert before.dirs <= after.dirs;
    if j < |init| {
      WriteAllMakesParents(s, project, init, j);
      assert init[j] == files[j];
    } else {
      assert Prefixes(Parent(project + files[j].path)) <= after.dirs;
      if init != [] {
        WriteAllMakesParents(s, project, init, 0);
      }
    }
  }

  /** No directory appears other than those above a written file. */
  lemma {:induction false} WriteAllNoOtherDirs(s: FsState, project: Path, files: seq<GeneratedFile>, d: Path)
    requires d in WriteAll(s, project, files).dirs
    ensures d in s.dirs || exists j :: 0 <= j < |files| && d in Prefixes(Parent(project + files[j].path))
    decreases files
  {
    if files != [] {
      var init := files[..|files| - 1];
      var last := files[|files| - 1];
      if d in WriteAll(s, project, init).dirs {
        WriteAllNoOtherDirs(s, project, init, d);
        if d !in s.dirs {
          var j :| 0 <= j < |init| && d in Prefixes(Parent(project + init[j].path));
          assert init[j] == files[j];
        }
      } else {
        assert d in Prefixes(Parent(project + files[|files| - 1].path));
      }
    }
  }

  /**
   * A nested path written into an empty project root: the file holds
   * exactly its content and both directories above it exist.
   */
  lemma NestedWriteExample(project: Path)
    ensures var r := WriteAll(FsState({}, map[]), project,
                              [GeneratedFile(["a", "b", "c.txt"], Some("hi"), "")]);
      && r.files[project + ["a", "b", "c.txt"]] == "hi"
      && project + ["a"] in r.dirs && project + ["a", "b"] in r.dirs
  {
    var p := project + ["a", "b", "c.txt"];
    assert Parent(p) == project + ["a", "b"];
    assert (project + ["a", "b"])[..|project| + 1] == project + ["a"];
    PrefixesSpec(project + ["a", "b"], project + ["a"]);
    PrefixesSpec(project + ["a", "b"], project + ["a", "b"]);
  }

  // ---------------------------------------------------------------------
  // The file system as an object updated in place.

  class FileSystem {
    var dirs: set<Path>
    var files: map<Path, string>

    function State(): FsState
      reads this
    {
      FsState(dirs, files)
    }

    constructor (dirs: set<Path>, files: map<Path, string>)
      ensures State() == FsState(dirs, files)
    {
      this.dirs := dirs;
      this.files := files;
    }

    /** `fs.ensureDir(p)` (lines 139 and 166). */
    method EnsureDir(p: Path)
      modifies this
      ensures State() == AfterEnsureDir(old(State()), p)
    {
      dirs := dirs + Prefixes(p);
    }

    /** `fs.ensureFile(p)` (line 150). */
    method EnsureFile(p: Path)
      modifies this
      ensures State() == AfterEnsureFile(old(State()), p)
    {
      dirs := dirs + Prefixes(Parent(p));
      if p !in files {
        files := files[p := ""];
      }
    }

    /** `fs.outputFile(p, content)` (line 157). */
    method OutputFile(p: Path, content: string)
      modifies this
      ensures State() == AfterOutputFile(old(State()), p, content)
    {
      dirs := dirs + Prefixes(Parent(p));
      files := files[p := content];
    }
  }

  /** `createStructure(basePath, node)` (lines 136-152). */
  method CreateStructure(fs: FileSystem, basePath: Path, node: Node)
    modifies fs
    ensures fs.State() == Materialize(old(fs.State()), basePath, node)
    decreases node
  {
    if node.Directory? {
      var dirPath := basePath + [node.name];
      fs.EnsureDir(dirPath);
      ghost var start := fs.State();
      for i := 0 to |node.children|
        invariant fs.State() == MaterializeAll(start, dirPath, node.children[..i])
      {
        assert node.children[..i + 1][..i] == node.children[..i];
        CreateStructure(fs, dirPath, node.children[i]);
      }
      assert node.children[..|node.children|] == node.children;
    }
    if node.File? {
      var filePath := basePath + [node.name];
      fs.EnsureFile(filePath);
    }
  }

  /** `writeFiles(projectPath, files)` (lines 154-159). */
  method WriteFiles(fs: FileSystem, projectPath: Path, files: seq<GeneratedFile>)
    modifies fs
    ensures fs.State() == WriteAll(old(fs.State()), projectPath, files)
  {
    for i := 0 to |files|
      invariant fs.State() == WriteAll(old(fs.State()), projectPath, files[..i])
    {
      WriteAllStep(old(fs.State()), projectPath, files, i);
      var fullPath := projectPath + files[i].path;
      fs.OutputFile(fullPath, ContentOrEmpty(files[i].content));
    }
    assert files[..|files|] == files;
  }
}

=== FILE: file_walk.dfy ===
/**
 * `getAllFiles` (mcp/tools/github-commit.js): the depth-first listing of
 * every regular file under a directory, skipping the names of a fixed
 * ignore list at every depth, each file with its path relative to the
 * root, `\` replaced by `/`.
 *
 * The directory tree is a value: `fs.readdirSync` yields the entries of a
 * directory in listing order and `fs.statSync(...).isDirectory()` tells
 * the two kinds apart. `GetAllFiles` threads its accumulator through the
 * recursion like the source and is proved equal to the specification
 * function `Walk`; the properties of `Walk` are lemmas.
 */
module FileWalk {
  import opened Paths

  /** One entry of a directory listing: a regular file, or a directory with its own listing. */
  datatype Entry = FileEntry(name: string) | DirEntry(name: string, entries: seq<Entry>)

  /** Names skipped at every depth (lines 160-171). */
  const IgnoreList: seq<string> :=
    [".git", "node_modules", ".DS_Store", "dist", "build", ".env", ".env.local",
     "package-lock.json", "yarn.lock", "pnpm-lock.yaml"]

  predicate Ignored(name: string) {
    name in IgnoreList
  }

  /** One element of the returned array: the file's full path and its path relative to the root. */
  datatype LocalFile = LocalFile(path: Path, relativePath: string)

  // ---------------------------------------------------------------------
  // Relative paths as strings

  /** The segments joined with `/`, as `path.relative` prints them. */
  function JoinSlash(segs: seq<string>): string
    decreases |segs|
  {
    if segs == [] then ""
    else if |segs| == 1 then segs[0]
    else segs[0] + "/" + JoinSlash(segs[1..])
  }

  /** `.replace(/\\/g, '/')`: every backslash becomes a slash, every other character stays. */
  function ReplaceBackslashes(s: string): (r: string)
    ensures |r| == |s|
    ensures forall i :: 0 <= i < |r| ==> r[i] != '\\'
    ensures forall i :: 0 <= i < |s| && s[i] != '\\' ==> r[i] == s[i]
    ensures forall i :: 0 <= i < |s| && s[i] == '\\' ==> r[i] == '/'
  {
    seq(|s|, i requires 0 <= i < |s| => if s[i] == '\\' then '/' else s[i])
  }

  /** `path.relative(basePath, filePath).replace(/\\/g, '/')` for a file `rel` below the root (line 184). */
  function RelativePath(rel: Path): string {
    ReplaceBackslashes(JoinSlash(rel))
  }

  /** The index of the first `/` in `s`, or `|s|` when there is none. */
  function IndexOfSlash(s: string): (k: nat)
    ensures k <= |s|
    ensures k < |s| ==> s[k] == '/'
    ensures forall i :: 0 <= i < k ==> s[i] != '/'
  {
    if s == [] then 0
    else if s[0] == '/' then 0
    else 1 + IndexOfSlash(s[1..])
  }

  /** `s.split('/')`: the reference reading of a relative path. */
  function Split(s: string): seq<string>
    decreases |s|
  {
    var k := IndexOfSlash(s);
    if k == |s| then [s] else [s[..k]] + Split(s[k + 1..])
  }

  // ---------------------------------------------------------------------
  // The specification

  /** The element `getAllFiles` pushes for the file `base + rel + r`. */
  function FileAt(base: Path, rel: Path, r: Path): LocalFile {
    LocalFile(base + rel + r, RelativePath(rel + r))
  }

  /** The pushed path is the base path followed by the file's path below it, and the relative path has no backslash. */
  lemma FileAtShape(base: Path, rel: Path, r: Path)
    ensures var f := FileAt(base, rel, r);
      && |f.path| == |base| + |rel| + |r| && f.path[..|base|] == base
      && f.path[|base|..] == rel + r
      && forall i :: 0 <= i < |f.relativePath| ==> f.relativePath[i] != '\\'
  {
    assert (base + rel + r)[|base|..] == rel + r;
  }

  /**
   * What `getAllFiles` appends for the listing `es` of the directory
   * `base + rel`, in listing order (defined from the last entry, the
   * order in which a loop extends it).
   */
  function Walk(base: Path, rel: Path, es: seq<Entry>): seq<LocalFile>
    decreases es
  {
    if es == [] then []
    else Walk(base, rel, es[..|es| - 1]) + WalkEntry(base, rel, es[|es| - 1])
  }

  /** What one entry of the directory `base + rel` contributes. */
  function WalkEntry(base: Path, rel: Path, e: Entry): seq<LocalFile>
    decreases e
  {
    if Ignored(e.name) then []
    else match e
      case FileEntry(name) => [FileAt(base, rel, [name])]
      case DirEntry(name, es) => Walk(base, rel + [name], es)
  }

  /**
   * The independent reading of "every file to commit": `r` names a regular
   * file reached from `e` through directories, no segment of it ignored.
   */
  ghost predicate EntryReaches(e: Entry, r: Path)
    decreases e
  {
    && |r| > 0
    && r[0] == e.name
    && !Ignored(e.name)
    && match e
       case FileEntry(_) => |r| == 1
       case DirEntry(_, es) => exists i :: 0 <= i < |es| && EntryReaches(es[i], r[1..])
  }

  ghost predicate Reaches(es: seq<Entry>, r: Path) {
    exists i :: 0 <= i < |es| && EntryReaches(es[i], r)
  }

  /** `readdirSync` lists each name of a directory once, at every depth. */
  ghost predicate WellFormedEntry(e: Entry)
    decreases e
  {
    e.DirEntry? ==> WellFormedListing(e.entries)
  }

  ghost predicate WellFormedListing(es: seq<Entry>)
    decreases es
  {
    && (forall i, j :: 0 <= i < j < |es| ==> es[i].name != es[j].name)
    && (forall i :: 0 <= i < |es| ==> WellFormedEntry(es[i]))
  }

  predicate NoDuplicatePaths(w: seq<LocalFile>) {
    forall k1, k2 :: 0 <= k1 < k2 < |w| ==> w[k1].path != w[k2].path
  }

  // ---------------------------------------------------------------------
  // The source's algorithm

  /**
   * `getAllFiles(dirPath, arrayOfFiles, basePath)` (lines 156-194) for a
   * directory whose listing is `entries`: the accumulator extended by the
   * walk of the directory.
   */
  method GetAllFiles(dirPath: Path, entries: seq<Entry>, arrayOfFiles: seq<LocalFile>, basePath: Path)
    returns (out: seq<LocalFile>)
    requires basePath <= dirPath
    ensures out == arrayOfFiles + Walk(basePath, dirPath[|basePath|..], entries)
    decreases entries
  {
    var rel := dirPath[|basePath|..];
    assert dirPath == basePath + rel;
    out := arrayOfFiles;
    for i := 0 to |entries|
      invariant out == arrayOfFiles + Walk(basePath, rel, entries[..i])
    {
      var file := entries[i];
      assert entries[..i + 1][..i] == entries[..i];
      if !Ignored(file.name) {
        var filePath := dirPath + [file.name];
        assert filePath[|basePath|..] == rel + [file.name];
        if file.DirEntry? {
          out := GetAllFiles(filePath, file.entries, out, basePath);
        } else {
          out := out + [LocalFile(filePath, RelativePath(filePath[|basePath|..]))];
        }
      }
    }
    assert entries[..|entries|] == entries;
  }

  // ---------------------------------------------------------------------
  // Properties

  /** Listing order: the walk of two consecutive runs of entries is the concatenation of their walks. */
  lemma {:induction false} WalkAppend(base: Path, rel: Path, xs: seq<Entry>, ys: seq<Entry>)
    ensures Walk(base, rel, xs + ys) == Walk(base, rel, xs) + Walk(base, rel, ys)
    decreases ys
  {
    if ys == [] {
      assert xs + ys == xs;
    } else {
      var ys' := ys[..|ys| - 1];
      assert (xs + ys)[..|xs + ys| - 1] == xs + ys';
      WalkAppend(base, rel, xs, ys');
    }
  }

  /**
   * Depth first: a subdirectory's files appear exactly where the
   * subdirectory is listed, between the files of its earlier and later
   * siblings.
   */
  lemma DirectoryInPlace(base: Path, rel: Path, xs: seq<Entry>, name: string, inner: seq<Entry>, ys: seq<Entry>)
    requires !Ignored(name)
    ensures Walk(base, rel, xs + [DirEntry(name, inner)] + ys)
         == Walk(base, rel, xs) + Walk(base, rel + [name], inner) + Walk(base, rel, ys)
  {
    WalkAppend(base, rel, xs + [DirEntry(name, inner)], ys);
    WalkAppend(base, rel, xs, [DirEntry(name, inner)]);
    assert [DirEntry(name, inner)][..0] == [];
  }

  /** An ignored directory is never descended into: whatever it holds, the result is as if it were absent. */
  lemma IgnoredDirectorySkipped(base: Path, rel: Path, xs: seq<Entry>, name: string, inner: seq<Entry>, ys: seq<Entry>)
    requires Ignored(name)
    ensures Walk(base, rel, xs + [DirEntry(name, inner)] + ys) == Walk(base, rel, xs + ys)
  {
    WalkAppend(base, rel, xs + [DirEntry(name, inner)], ys);
    WalkAppend(base, rel, xs, [DirEntry(name, inner)]);
    WalkAppend(base, rel, xs, ys);
    assert [DirEntry(name, inner)][..0] == [];
  }

  /** A root listing of three files whose middle one is ignored yields the other two, in order. */
  lemma IgnoredFileSkipped(base: Path, a: string, ignored: string, b: string)
    requires !Ignored(a) && Ignored(ignored) && !Ignored(b)
    ensures Walk(base, [], [FileEntry(a), FileEntry(ignored), FileEntry(b)]) == [FileAt(base, [], [a]), FileAt(base, [], [b])]
  {
    var listing := [FileEntry(a), FileEntry(ignored), FileEntry(b)];
    var one, two := [FileEntry(a)], [FileEntry(a), FileEntry(ignored)];
    assert listing[..2] == two && two[..1] == one && one[..0] == [];
    assert Walk(base, [], one) == [FileAt(base, [], [a])];
    assert Walk(base, [], two) == Walk(base, [], one) + WalkEntry(base, [], FileEntry(ignored));
    assert Walk(base, [], listing) == Walk(base, [], two) + WalkEntry(base, [], FileEntry(b));
  }

  /** Soundness: every returned element is a reachable, non-ignored file below the directory. */
  lemma {:induction false} WalkSound(base: Path, rel: Path, es: seq<Entry>, k: nat)
    requires k < |Walk(base, rel, es)|
    ensures exists r :: Reaches(es, r) && Walk(base, rel, es)[k] == FileAt(base, rel, r)
    decreases es
  {
    var init := es[..|es| - 1];
    var last := es[|es| - 1];
    if k < |Walk(base, rel, init)| {
      WalkSound(base, rel, init, k);
      var r :| Reaches(init, r) && Walk(base, rel, init)[k] == FileAt(base, rel, r);
      var i :| 0 <= i < |init| && EntryReaches(init[i], r);
      assert es[i] == init[i];
      assert Reaches(es, r);
    } else {
      EntrySound(base, rel, last, k - |Walk(base, rel, init)|);
      var r :| EntryReaches(last, r) && WalkEntry(base, rel, last)[k - |Walk(base, rel, init)|] == FileAt(base, rel, r);
      assert Reaches(es, r);
    }
  }

  lemma {:induction false} EntrySound(base: Path, rel: Path, e: Entry, k: nat)
    requires k < |WalkEntry(base, rel, e)|
    ensures exists r :: EntryReaches(e, r) && WalkEntry(base, rel, e)[k] == FileAt(base, rel, r)
    decreases e
  {
    match e
    case FileEntry(name) =>
      assert EntryReaches(e, [name]);
    case DirEntry(name, es) =>
      assert WalkEntry(base, rel, e) == Walk(base, rel + [name], es);
      WalkSound(base, rel + [name], es, k);
      var r' :| Reaches(es, r') && Walk(base, rel + [name], es)[k] == FileAt(base, rel + [name], r');
      var i :| 0 <= i < |es| && EntryReaches(es[i], r');
      var r := [name] + r';
      assert r[1..] == r';
      assert rel + [name] + r' == rel + r;
      assert base + (rel + [name]) + r' == base + rel + r;
      assert FileAt(base, rel + [name], r') == FileAt(base, rel, r);
      assert EntryReaches(e, r);
  }

  /** Completeness: every reachable, non-ignored file is returned. */
  lemma {:induction false} WalkComplete(base: Path, rel: Path, es: seq<Entry>, r: Path)
    requires Reaches(es, r)
    ensures FileAt(base, rel, r) in Walk(base, rel, es)
    decreases es
  {
    var i :| 0 <= i < |es| && EntryReaches(es[i], r);
    var init := es[..|es| - 1];
    if i == |es| - 1 {
      EntryComplete(base, rel, es[i], r);
    } else {
      assert init[i] == es[i];
      WalkComplete(base, rel, init, r);
    }
  }

  lemma {:induction false} EntryComplete(base: Path, rel: Path, e: Entry, r: Path)
    requires EntryReaches(e, r)
    ensures FileAt(base, rel, r) in WalkEntry(base, rel, e)
    decreases e
  {
    match e
    case FileEntry(name) =>
      assert r == [name];
    case DirEntry(name, es) =>
      var r' := r[1..];
      WalkComplete(base, rel + [name], es, r');
      assert r == [name] + r';
      assert rel + [name] + r' == rel + r;
      assert base + (rel + [name]) + r' == base + rel + r;
  }

  /** No returned element has an ignored segment below the root, nor a backslash in its relative path. */
  lemma NothingIgnoredReturned(base: Path, es: seq<Entry>, k: nat)
    requires k < |Walk(base, [], es)|
    ensures var f := Walk(base, [], es)[k];
      && base <= f.path
      && (forall j :: |base| <= j < |f.path| ==> !Ignored(f.path[j]))
      && (forall j :: 0 <= j < |f.relativePath| ==> f.relativePath[j] != '\\')
  {
    WalkSound(base, [], es, k);
    var r :| Reaches(es, r) && Walk(base, [], es)[k] == FileAt(base, [], r);
    ReachesAvoidsIgnored(es, r);
    var f := Walk(base, [], es)[k];
    assert f.path == base + r;
    forall j | |base| <= j < |f.path|
      ensures !Ignored(f.path[j])
    {
      assert f.path[j] == r[j - |base|];
    }
  }

  lemma {:induction false} ReachesAvoidsIgnored(es: seq<Entry>, r: Path)
    requires Reaches(es, r)
    ensures forall j :: 0 <= j < |r| ==> !Ignored(r[j])
    decreases |r|
  {
    var i :| 0 <= i < |es| && EntryReaches(es[i], r);
    if es[i].DirEntry? && |r| > 1 {
      ReachesAvoidsIgnored(es[i].entries, r[1..]);
      forall j | 1 <= j < |r|
        ensures !Ignored(r[j])
      {
        assert r[j] == r[1..][j - 1];
      }
    }
  }

  /** Each element of one entry's walk lies below that entry. */
  lemma EntryPathsBelow(base: Path, rel: Path, e: Entry, k: nat)
    requires k < |WalkEntry(base, rel, e)|
    ensures var p := WalkEntry(base, rel, e)[k].path;
      |p| > |base + rel| && p[|base + rel|] == e.name
  {
    EntrySound(base, rel, e, k);
    var r :| EntryReaches(e, r) && WalkEntry(base, rel, e)[k] == FileAt(base, rel, r);
    assert (base + rel + r)[|base + rel|] == r[0];
  }

  /** Each element of a listing's walk lies below one of the listed entries. */
  lemma WalkPathsBelow(base: Path, rel: Path, es: seq<Entry>, k: nat)
    requires k < |Walk(base, rel, es)|
    ensures var p := Walk(base, rel, es)[k].path;
      |p| > |base + rel| && exists i :: 0 <= i < |es| && p[|base + rel|] == es[i].name
  {
    WalkSound(base, rel, es, k);
    var r :| Reaches(es, r) && Walk(base, rel, es)[k] == FileAt(base, rel, r);
    var i :| 0 <= i < |es| && EntryReaches(es[i], r);
    assert (base + rel + r)[|base + rel|] == r[0];
  }

  /** Exactly once: when each directory lists a name once, no path is returned twice. */
  lemma {:induction false} WalkUnique(base: Path, rel: Path, es: seq<Entry>)
    requires WellFormedListing(es)
    ensures NoDuplicatePaths(Walk(base, rel, es))
    decreases es
  {
    if es != [] {
      var init := es[..|es| - 1];
      var last := es[|es| - 1];
      assert WellFormedListing(init) by {
        forall i | 0 <= i < |init| ensures WellFormedEntry(init[i]) {
          assert init[i] == es[i];
        }
      }
      WalkUnique(base, rel, init);
      EntryUnique(base, rel, last);
      var w1 := Walk(base, rel, init);
      var w2 := WalkEntry(base, rel, last);
      forall k1, k2 | 0 <= k1 < |w1| && 0 <= k2 < |w2|
        ensures w1[k1].path != w2[k2].path
      {
        WalkPathsBelow(base, rel, init, k1);
        EntryPathsBelow(base, rel, last, k2);
      }
    }
  }

  lemma {:induction false} EntryUnique(base: Path, rel: Path, e: Entry)
    requires WellFormedEntry(e)
    ensures NoDuplicatePaths(WalkEntry(base, rel, e))
    decreases e
  {
    if !Ignored(e.name) && e.DirEntry? {
      WalkUnique(base, rel + [e.name], e.entries);
    }
  }

  /** The relative path reads back as its segments when no name holds a separator. */
  lemma {:induction false} RelativePathSplits(segs: seq<string>)
    requires segs != []
    requires forall i, j :: 0 <= i < |segs| && 0 <= j < |segs[i]| ==> segs[i][j] != '/' && segs[i][j] != '\\'
    ensures Split(RelativePath(segs)) == segs
    decreases |segs|
  {
    NoBackslashJoin(segs);
    JoinSplits(segs);
  }

  lemma {:induction false} NoBackslashJoin(segs: seq<string>)
    requires forall i, j :: 0 <= i < |segs| && 0 <= j < |segs[i]| ==> segs[i][j] != '\\'
    ensures ReplaceBackslashes(JoinSlash(segs)) == JoinSlash(segs)
    decreases |segs|
  {
    if |segs| > 1 {
      NoBackslashJoin(segs[1..]);
      var s := JoinSlash(segs);
      var rest := JoinSlash(segs[1..]);
      assert s == segs[0] + "/" + rest;
      forall i | 0 <= i < |s| ensures s[i] != '\\' {
        if i < |segs[0]| {
          assert s[i] == segs[0][i];
        } else if i > |segs[0]| {
          assert s[i] == rest[i - |segs[0]| - 1];
        }
      }
    }
  }

  lemma {:induction false} JoinSplits(segs: seq<string>)
    requires segs != []
    requires forall i, j :: 0 <= i < |segs| && 0 <= j < |segs[i]| ==> segs[i][j] != '/'
    ensures Split(JoinSlash(segs)) == segs
    decreases |segs|
  {
    var x := segs[0];
    if |segs| == 1 {
      assert forall i :: 0 <= i < |x| ==> x[i] != '/';
    } else {
      var rest := JoinSlash(segs[1..]);
      var s := x + "/" + rest;
      var k := IndexOfSlash(s);
      assert s[|x|] == '/';
      assert forall i :: 0 <= i < |x| ==> s[i] == x[i];
      assert k == |x|;
      assert s[..k] == x;
      assert s[k + 1..] == rest;
      JoinSplits(segs[1..]);
    }
  }

  /**
   * The replacement also rewrites a backslash that is part of a name: a
   * root file named `a\b` is reported under the same relative path as the
   * file `b` of the directory `a`.
   */
  lemma BackslashNameCollides()
    ensures RelativePath(["a\\b"]) == RelativePath(["a", "b"]) == "a/b"
  {
    assert JoinSlash(["a", "b"]) == "a/b" by {
      assert ["a", "b"][1..] == ["b"];
    }
    assert ReplaceBackslashes("a\\b") == "a/b";
    assert ReplaceBackslashes("a/b") == "a/b";
  }
}

=== FILE: generate_code.dfy ===
/**
 * `generateCode` and `generateProject` (McpDay/tools/generate-code.js):
 * check the API key, clean the completion text, extract and parse the JSON
 * object, build the result with its summary, then create the project
 * directory, the described structure and the listed files.
 *
 * The completion request is not modelled: its text is a parameter, and
 * `JSON.parse` is an abstract partial parser `parse`.
 */
module ProjectGenerator {
  import opened Wrappers
  import opened Paths
  import opened ResponseText
  import opened FileSystemModel

  /** The request; `framework`, `rootPath` and `includeTests` may be absent. */
  datatype Params = Params(
    description: string,
    language: string,
    framework: Option<string>,
    rootPath: Option<Path>,
    includeTests: Option<bool>)

  /**
   * The object parsed from the completion; fields the completion may leave
   * out are options (`None` for an absent or null `fileStructure`).
   */
  datatype ProjectData = ProjectData(
    projectName: Option<string>,
    fileStructure: Option<Node>,
    files: Option<seq<GeneratedFile>>,
    setupInstructions: string,
    additionalNotes: string)

  datatype Summary = Summary(totalFiles: nat, language: string, framework: Option<string>, hasTests: Option<bool>)

  /** The value `generateCode` returns (lines 112-125). */
  datatype GeneratedProject = GeneratedProject(
    success: bool,
    projectName: Option<string>,
    fileStructure: Option<Node>,
    files: seq<GeneratedFile>,
    setupInstructions: string,
    additionalNotes: string,
    summary: Summary)

  /** The errors `generateCode` throws. */
  datatype Error =
    | MissingApiKey        // line 9
    | NoJsonObject         // line 107
    | InvalidJson          // `JSON.parse` throws, line 111
    | MissingFiles         // `.length` of an absent `files`, line 120
    | InvalidPathArgument  // `path.join` given an absent root or project name, line 164
    | StructureTypeError   // `node.type` of an absent or null `fileStructure`, line 137 via line 168

  /** The message of the errors the module throws itself; the others carry the runtime's own text. */
  function Message(e: Error): Option<string> {
    match e
    case MissingApiKey => Some("GEMINI KEY not found")
    case NoJsonObject => Some("No JSON object found in the respose")
    case _ => None
  }

  /** `!apiKey` is false: the variable is set and not empty. */
  predicate ApiKeyPresent(apiKey: Option<string>) {
    apiKey.Some? && apiKey.value != ""
  }

  /**
   * Lines 91-125: from the completion text to the returned object. The
   * summary counts the parsed files and echoes the request's language,
   * framework and test flag; a text with no `{` before a `}` fails with
   * the "no JSON object" error, and a parsed object without `files` fails.
   */
  function BuildResult(params: Params, text: string, parse: string -> Option<ProjectData>): (r: Result<GeneratedProject, Error>)
    ensures r == Err(NoJsonObject) <==> forall i, j :: !IsObjectSpan(Clean(text), i, j)
    ensures r == Err(InvalidJson) <==> ExtractJson(text).Some? && parse(ExtractJson(text).value).None?
    ensures r == Err(MissingFiles) <==>
      ExtractJson(text).Some? && parse(ExtractJson(text).value).Some? && parse(ExtractJson(text).value).value.files.None?
    ensures r.Ok? <==>
      ExtractJson(text).Some? && parse(ExtractJson(text).value).Some? && parse(ExtractJson(text).value).value.files.Some?
    ensures r.Ok? ==>
      var d := parse(ExtractJson(text).value).value;
      && d.files == Some(r.value.files)
      && r.value.projectName == d.projectName
      && r.value.fileStructure == d.fileStructure
      && r.value.setupInstructions == d.setupInstructions
      && r.value.additionalNotes == d.additionalNotes
    ensures r.Ok? ==>
      && r.value.success
      && r.value.summary.totalFiles == |r.value.files|
      && r.value.summary.language == params.language
      && r.value.summary.framework == params.framework
      && r.value.summary.hasTests == params.includeTests
  {
    match ExtractJson(text)
    case None => Err(NoJsonObject)
    case Some(json) =>
      match parse(json)
      case None => Err(InvalidJson)
      case Some(d) =>
        if d.files.None? then Err(MissingFiles)
        else
          Ok(GeneratedProject(
            true, d.projectName, d.fileStructure, d.files.value, d.setupInstructions, d.additionalNotes,
            Summary(|d.files.value|, params.language, params.framework, params.includeTests)))
  }

  /** `path.join(root, data.projectName)` (line 164), when both are present. */
  function ProjectPath(data: GeneratedProject, root: Option<Path>): (r: Option<Path>)
    ensures r.Some? <==> root.Some? && data.projectName.Some?
    ensures r.Some? ==> |r.value| == |root.value| + 1 && Parent(r.value) == root.value
                        && r.value[|root.value|] == data.projectName.value
  {
    if root.Some? && data.projectName.Some? then Some(root.value + [data.projectName.value]) else None
  }

  /**
   * `generateProject(data, root)` (lines 161-173): its outcome and the file
   * system afterwards. An absent `fileStructure` throws inside
   * `createStructure`, after the project directory has been created.
   */
  function ProjectOutcome(s: FsState, data: GeneratedProject, root: Option<Path>): (Result<(), Error>, FsState) {
    match ProjectPath(data, root)
    case None => (Err(InvalidPathArgument), s)
    case Some(p) =>
      match data.fileStructure
      case None => (Err(StructureTypeError), AfterEnsureDir(s, p))
      case Some(node) => (Ok(()), WriteAll(Materialize(AfterEnsureDir(s, p), p, node), p, data.files))
  }

  /** `generateCode(params)` (lines 5-134): the result and the file system afterwards. */
  function Generate(s: FsState, params: Params, apiKey: Option<string>, text: string,
                    parse: string -> Option<ProjectData>): (Result<GeneratedProject, Error>, FsState)
  {
    if !ApiKeyPresent(apiKey) then (Err(MissingApiKey), s)
    else
      match BuildResult(params, text, parse)
      case Err(e) => (Err(e), s)
      case Ok(data) =>
        var (done, t) := ProjectOutcome(s, data, params.rootPath);
        if done.Err? then (Err(done.error), t) else (Ok(data), t)
  }

  /** A missing key fails first, whatever the completion says, and touches nothing. */
  lemma MissingKeyFailsFirst(s: FsState, params: Params, apiKey: Option<string>, text: string,
                             parse: string -> Option<ProjectData>)
    requires !ApiKeyPresent(apiKey)
    ensures Generate(s, params, apiKey, text, parse) == (Err(MissingApiKey), s)
  {
  }

  /** A response without a `{`...`}` span fails with the "no JSON object" error and creates nothing. */
  lemma NoJsonObjectCreatesNothing(s: FsState, params: Params, apiKey: Option<string>, text: string,
                                   parse: string -> Option<ProjectData>)
    requires ApiKeyPresent(apiKey)
    requires forall i, j :: !IsObjectSpan(Clean(text), i, j)
    ensures Generate(s, params, apiKey, text, parse) == (Err(NoJsonObject), s)
  {
  }

  /**
   * Every failure raised before `ensureDir` (line 166) leaves the file
   * system as it was: only the structure's type error comes later.
   */
  lemma EarlyFailureCreatesNothing(s: FsState, params: Params, apiKey: Option<string>, text: string,
                                   parse: string -> Option<ProjectData>)
    ensures var (r, t) := Generate(s, params, apiKey, text, parse);
      r.Err? && r.error != StructureTypeError ==> t == s
  {
  }

  /**
   * A parsed object without `fileStructure` (the shape of a response that
   * lists only files) fails in `createStructure`, leaving behind exactly
   * the project directory and its ancestors and writing no file.
   */
  lemma MissingStructureLeavesProjectDir(s: FsState, params: Params, apiKey: Option<string>, text: string,
                                         parse: string -> Option<ProjectData>)
    requires ApiKeyPresent(apiKey) && params.rootPath.Some?
    requires ExtractJson(text).Some? && parse(ExtractJson(text).value).Some?
    requires var d := parse(ExtractJson(text).value).value;
      d.files.Some? && d.projectName.Some? && d.fileStructure.None?
    ensures var (r, t) := Generate(s, params, apiKey, text, parse);
      var p := params.rootPath.value + [parse(ExtractJson(text).value).value.projectName.value];
      && r == Err(StructureTypeError)
      && t.files == s.files
      && t.dirs == s.dirs + Prefixes(p)
  {
  }

  /**
   * With the key present, `generateCode` succeeds exactly when the span
   * parses into an object with `files`, a project name and a structure,
   * and a root is given; the file system is then the described structure
   * and the listed files under `root/projectName`.
   */
  lemma GenerateSucceeds(s: FsState, params: Params, apiKey: Option<string>, text: string,
                         parse: string -> Option<ProjectData>)
    requires ApiKeyPresent(apiKey)
    ensures Generate(s, params, apiKey, text, parse).0.Ok? <==>
      && params.rootPath.Some?
      && ExtractJson(text).Some? && parse(ExtractJson(text).value).Some?
      && var d := parse(ExtractJson(text).value).value;
         d.files.Some? && d.projectName.Some? && d.fileStructure.Some?
    ensures Generate(s, params, apiKey, text, parse).0.Ok? ==>
      var d := parse(ExtractJson(text).value).value;
      var p := params.rootPath.value + [d.projectName.value];
      Generate(s, params, apiKey, text, parse).1
        == WriteAll(Materialize(AfterEnsureDir(s, p), p, d.fileStructure.value), p, d.files.value)
  {
  }

  /**
   * Line 168 passes the whole `fileStructure` array to `createStructure`;
   * an array has no `type`, so only the project directory and the listed
   * files are created.
   */
  lemma ArrayStructureCreatesNothing(s: FsState, data: GeneratedProject, root: Option<Path>)
    requires data.fileStructure.Some? && data.fileStructure.value.Array?
    requires root.Some? && data.projectName.Some?
    ensures var p := root.value + [data.projectName.value];
      ProjectOutcome(s, data, root) == (Ok(()), WriteAll(AfterEnsureDir(s, p), p, data.files))
  {
  }

  /**
   * On success, every listed path under the project directory holds the
   * content of the last entry with that path, and the summary counts the
   * files returned.
   */
  lemma SuccessWritesListedFiles(s: FsState, params: Params, apiKey: Option<string>, text: string,
                                 parse: string -> Option<ProjectData>, i: nat)
    requires Generate(s, params, apiKey, text, parse).0.Ok?
    requires var d := Generate(s, params, apiKey, text, parse).0.value;
      i < |d.files| && forall j :: i < j < |d.files| ==> d.files[j].path != d.files[i].path
    ensures var (r, t) := Generate(s, params, apiKey, text, parse);
      && params.rootPath.Some? && r.value.projectName.Some?
      && r.value.summary.totalFiles == |r.value.files|
      && var p := params.rootPath.value + [r.value.projectName.value] + r.value.files[i].path;
         p in t.files && t.files[p] == ContentOrEmpty(r.value.files[i].content)
  {
    var d := Generate(s, params, apiKey, text, parse).0.value;
    var p := params.rootPath.value + [d.projectName.value];
    var m := Materialize(AfterEnsureDir(s, p), p, d.fileStructure.value);
    WriteAllLastWins(m, p, d.files, i);
  }

  /**
   * On success, a file that is neither listed nor described keeps its
   * content, and every directory that existed still exists.
   */
  lemma SuccessKeepsOtherFiles(s: FsState, params: Params, apiKey: Option<string>, text: string,
                               parse: string -> Option<ProjectData>, q: Path)
    requires Generate(s, params, apiKey, text, parse).0.Ok?
    requires q in s.files
    requires var d := Generate(s, params, apiKey, text, parse).0.value;
      forall j :: 0 <= j < |d.files| ==> params.rootPath.value + [d.projectName.value] + d.files[j].path != q
    ensures var t := Generate(s, params, apiKey, text, parse).1;
      q in t.files && t.files[q] == s.files[q] && s.dirs <= t.dirs
  {
    var d := Generate(s, params, apiKey, text, parse).0.value;
    var p := params.rootPath.value + [d.projectName.value];
    var m := Materialize(AfterEnsureDir(s, p), p, d.fileStructure.value);
    MaterializeOnlyAdds(AfterEnsureDir(s, p), p, d.fileStructure.value);
    WriteAllUntouched(m, p, d.files, q);
    if d.files != [] {
      WriteAllMakesParents(m, p, d.files, 0);
    }
  }

  /** `generateProject(data, root)` (lines 161-173). */
  method GenerateProject(fs: FileSystem, data: GeneratedProject, root: Option<Path>) returns (r: Result<(), Error>)
    modifies fs
    ensures (r, fs.State()) == ProjectOutcome(old(fs.State()), data, root)
  {
    if root.None? || data.projectName.None? {
      return Err(InvalidPathArgument);
    }
    var projectPath := root.value + [data.projectName.value];
    fs.EnsureDir(projectPath);
    if data.fileStructure.None? {
      return Err(StructureTypeError);
    }
    CreateStructure(fs, projectPath, data.fileStructure.value);
    WriteFiles(fs, projectPath, data.files);
    r := Ok(());
  }

  /** `generateCode(params)` (lines 5-134), with the completion text given. */
  method GenerateCode(fs: FileSystem, params: Params, apiKey: Option<string>, text: string,
                      parse: string -> Option<ProjectData>) returns (r: Result<GeneratedProject, Error>)
    modifies fs
    ensures (r, fs.State()) == Generate(old(fs.State()), params, apiKey, text, parse)
  {
    if !ApiKeyPresent(apiKey) {
      return Err(MissingApiKey);
    }
    r := BuildResult(params, text, parse);
    if r.Err? {
      return;
    }
    var done := GenerateProject(fs, r.value, params.rootPath);
    if done.Err? {
      r := Err(done.error);
    }
  }
}

=== FILE: github_commit.dfy ===
/**
 * `autoCommitAndPush` (mcp/tools/github-commit.js): snapshot a local
 * directory into one new commit on top of a branch of a remote
 * repository and advance the branch to it.
 *
 * The remote is a `Remote` object holding the repository's refs, commits,
 * trees and blobs; each Git-data call the source makes is one of its
 * methods, proved equal to a function on `RemoteState` values. The sha of
 * a new object is given by the content-hash oracles in `Hashes`. The local
 * directory is a `FileWalk.Entry` tree and file contents come from `read`.
 */
module GithubCommit {
  import opened Wrappers
  import opened Paths
  import opened FileWalk

  type Sha = string
  type Bytes = seq<bv8>

  /** One element of the `tree` argument of `createTree`. */
  datatype TreeEntry = TreeEntry(path: string, mode: string, entryType: string, sha: Sha)

  /** A tree object: the entries laid over the base tree, when there is one. */
  datatype Tree = Tree(baseTree: Option<Sha>, entries: seq<TreeEntry>)

  datatype Commit = Commit(message: string, tree: Sha, parents: seq<Sha>)

  /** The sha the remote gives to a new object of each kind. */
  datatype Hashes = Hashes(blob: Bytes -> Sha, tree: Tree -> Sha, commit: Commit -> Sha)

  datatype RemoteState = RemoteState(
    refs: map<string, Sha>,
    commits: map<Sha, Commit>,
    trees: map<Sha, Tree>,
    blobs: map<Sha, Bytes>)

  /** The HTTP failures of the Git-data calls. */
  datatype ApiError = NotFound | Unprocessable

  /** What the local side of the call sees at `localPath`. */
  datatype LocalTarget = Missing | NotDirectory | Directory(listing: seq<Entry>)

  datatype CommitError =
    | PathDoesNotExist(path: Path)
    | NotADirectory(path: Path)
    | NoFilesFound
    | Api(status: ApiError)

  datatype CommitResult = CommitResult(success: bool, sha: Sha, message: string, url: string, filesCommitted: nat)

  const Owner: string := "tmxatom"
  const FileMode: string := "100644"
  const BlobType: string := "blob"

  /** The messages the function throws itself (lines 36 and 48). */
  function Message(e: CommitError): Option<string> {
    match e
    case PathDoesNotExist(p) => Some("Path does not exist: " + JoinSlash(p))
    case NoFilesFound => Some("No files found to commit")
    case _ => None
  }

  /** The ref `heads/<branch>` that is read (line 57) and moved (line 125). */
  function RefName(branch: string): string {
    "heads/" + branch
  }

  /** Distinct branches have distinct refs, so moving one branch moves no other. */
  lemma RefNameInjective(a: string, b: string)
    ensures RefName(a) == RefName(b) <==> a == b
  {
    if RefName(a) == RefName(b) {
      assert a == RefName(a)[6..] && b == RefName(b)[6..];
    }
  }

  /** The link the result reports (line 139). */
  function CommitUrl(repo: string, sha: Sha): string {
    "https://github.com/" + Owner + "/" + repo + "/commit/" + sha
  }

  /** Every ref names a commit, every commit's tree and parents exist, every tree's base and blobs exist. */
  predicate Valid(s: RemoteState) {
    && (forall r :: r in s.refs ==> s.refs[r] in s.commits)
    && (forall c :: c in s.commits ==> s.commits[c].tree in s.trees)
    && (forall c, p :: c in s.commits && p in s.commits[c].parents ==> p in s.commits)
    && (forall t :: t in s.trees && s.trees[t].baseTree.Some? ==> s.trees[t].baseTree.value in s.trees)
    && (forall t, e :: t in s.trees && e in s.trees[t].entries ==> e.sha in s.blobs)
  }

  // ---------------------------------------------------------------------
  // The Git-data calls on values

  /** `git.createBlob`: stored under the hash of its content. */
  function CreateBlobOn(s: RemoteState, h: Hashes, content: Bytes): (r: (Sha, RemoteState))
    ensures r.0 in r.1.blobs && r.1.blobs[r.0] == content
    ensures r.1.refs == s.refs && r.1.commits == s.commits && r.1.trees == s.trees
    ensures s.blobs.Keys <= r.1.blobs.Keys
    ensures r.0 == h.blob(content) && r.1 == s.(blobs := s.blobs[r.0 := content])
  {
    var sha := h.blob(content);
    (sha, s.(blobs := s.blobs[sha := content]))
  }

  /** `git.createTree` with a `base_tree`: refused when the base tree or a listed blob is unknown. */
  function CreateTreeOn(s: RemoteState, h: Hashes, entries: seq<TreeEntry>, baseTree: Sha): (r: (Result<Sha, ApiError>, RemoteState))
    ensures r.0.Ok? <==> baseTree in s.trees && forall e :: e in entries ==> e.sha in s.blobs
    ensures r.0.Ok? ==> r.1 == s.(trees := s.trees[r.0.value := Tree(Some(baseTree), entries)])
    ensures r.0.Err? ==> r.1 == s
  {
    var tree := Tree(Some(baseTree), entries);
    if baseTree in s.trees && forall e :: e in entries ==> e.sha in s.blobs then
      (Ok(h.tree(tree)), s.(trees := s.trees[h.tree(tree) := tree]))
    else
      (Err(Unprocessable), s)
  }

  /** `git.createCommit`: refused when the tree or a parent is unknown. */
  function CreateCommitOn(s: RemoteState, h: Hashes, message: string, tree: Sha, parents: seq<Sha>): (r: (Result<Sha, ApiError>, RemoteState))
    ensures r.0.Ok? <==> tree in s.trees && forall p :: p in parents ==> p in s.commits
    ensures r.0.Ok? ==> r.1 == s.(commits := s.commits[r.0.value := Commit(message, tree, parents)])
    ensures r.0.Err? ==> r.1 == s
  {
    var commit := Commit(message, tree, parents);
    if tree in s.trees && forall p :: p in parents ==> p in s.commits then
      (Ok(h.commit(commit)), s.(commits := s.commits[h.commit(commit) := commit]))
    else
      (Err(Unprocessable), s)
  }

  /** `git.updateRef`: refused when the ref or the commit is unknown. */
  function UpdateRefOn(s: RemoteState, ref: string, sha: Sha): (r: (Result<(), ApiError>, RemoteState))
    ensures r.0.Ok? <==> ref in s.refs && sha in s.commits
    ensures r.0.Ok? ==> r.1 == s.(refs := s.refs[ref := sha])
    ensures r.0.Err? ==> r.1 == s
  {
    if ref in s.refs && sha in s.commits then (Ok(()), s.(refs := s.refs[ref := sha])) else (Err(Unprocessable), s)
  }

  lemma CreateBlobKeepsValid(s: RemoteState, h: Hashes, content: Bytes)
    requires Valid(s)
    ensures Valid(CreateBlobOn(s, h, content).1)
  {
  }

  lemma CreateTreeKeepsValid(s: RemoteState, h: Hashes, entries: seq<TreeEntry>, baseTree: Sha)
    requires Valid(s)
    ensures Valid(CreateTreeOn(s, h, entries, baseTree).1)
  {
  }

  lemma CreateCommitKeepsValid(s: RemoteState, h: Hashes, message: string, tree: Sha, parents: seq<Sha>)
    requires Valid(s)
    ensures Valid(CreateCommitOn(s, h, message, tree, parents).1)
  {
  }

  lemma UpdateRefKeepsValid(s: RemoteState, ref: string, sha: Sha)
    requires Valid(s)
    ensures Valid(UpdateRefOn(s, ref, sha).1)
  {
  }

  // ---------------------------------------------------------------------
  // The snapshot

  /**
   * The `tree` argument built by the upload loop (lines 73-90): one blob
   * entry per file, in the order of the file list.
   */
  function BlobList(h: Hashes, files: seq<LocalFile>, read: Path -> Bytes): (r: seq<TreeEntry>)
    ensures |r| == |files|
    ensures forall i :: 0 <= i < |files| ==>
      r[i] == TreeEntry(files[i].relativePath, FileMode, BlobType, h.blob(read(files[i].path)))
  {
    if files == [] then []
    else
      var last := files[|files| - 1];
      BlobList(h, files[..|files| - 1], read) + [TreeEntry(last.relativePath, FileMode, BlobType, h.blob(read(last.path)))]
  }

  /** Distinct contents get distinct blob shas (no hash collision). */
  ghost predicate BlobHashInjective(h: Hashes) {
    forall x, y :: h.blob(x) == h.blob(y) ==> x == y
  }

  /** The shas of the files' contents: the blobs the uploads write. */
  function FileShas(h: Hashes, files: seq<LocalFile>, read: Path -> Bytes): set<Sha> {
    set i | 0 <= i < |files| :: h.blob(read(files[i].path))
  }

  /** The remote after one `createBlob` per file, in order. */
  function AddBlobs(s: RemoteState, h: Hashes, files: seq<LocalFile>, read: Path -> Bytes): (r: RemoteState)
    ensures r.refs == s.refs && r.commits == s.commits && r.trees == s.trees
    ensures s.blobs.Keys <= r.blobs.Keys
    ensures forall i :: 0 <= i < |files| ==> h.blob(read(files[i].path)) in r.blobs
    ensures forall i :: 0 <= i < |files| ==>
      h.blob(r.blobs[h.blob(read(files[i].path))]) == h.blob(read(files[i].path))
    ensures r.blobs.Keys == s.blobs.Keys + FileShas(h, files, read)
  {
    if files == [] then s
    else
      var init := files[..|files| - 1];
      var prev := AddBlobs(s, h, init, read);
      var content := read(files[|files| - 1].path);
      UploadStep(s, prev, h, files, read);
      CreateBlobOn(prev, h, content).1
  }

  /** One more upload carries the facts about the blob store from the earlier files to all of them. */
  lemma UploadStep(s: RemoteState, prev: RemoteState, h: Hashes, files: seq<LocalFile>, read: Path -> Bytes)
    requires files != []
    requires prev.blobs.Keys == s.blobs.Keys + FileShas(h, files[..|files| - 1], read)
    requires forall i :: 0 <= i < |files| - 1 ==>
      h.blob(prev.blobs[h.blob(read(files[i].path))]) == h.blob(read(files[i].path))
    ensures var next := CreateBlobOn(prev, h, read(files[|files| - 1].path)).1;
      && next.blobs.Keys == s.blobs.Keys + FileShas(h, files, read)
      && forall i :: 0 <= i < |files| ==>
           h.blob(next.blobs[h.blob(read(files[i].path))]) == h.blob(read(files[i].path))
  {
    var init := files[..|files| - 1];
    var content := read(files[|files| - 1].path);
    var next := CreateBlobOn(prev, h, content).1;
    FileShasStep(h, files, read);
    assert next.blobs == prev.blobs[h.blob(content) := content];
    forall i | 0 <= i < |files|
      ensures h.blob(next.blobs[h.blob(read(files[i].path))]) == h.blob(read(files[i].path))
    {
      var k := h.blob(read(files[i].path));
      if k != h.blob(content) {
        assert init[i] == files[i];
        assert next.blobs[k] == prev.blobs[k];
      }
    }
  }

  /** One more file adds its own sha to the shas of the files before it. */
  lemma FileShasStep(h: Hashes, files: seq<LocalFile>, read: Path -> Bytes)
    requires files != []
    ensures FileShas(h, files, read)
         == FileShas(h, files[..|files| - 1], read) + {h.blob(read(files[|files| - 1].path))}
  {
    var init := files[..|files| - 1];
    forall x | x in FileShas(h, files, read)
      ensures x in FileShas(h, init, read) + {h.blob(read(files[|files| - 1].path))}
    {
      var i :| 0 <= i < |files| && x == h.blob(read(files[i].path));
      if i < |init| {
        assert init[i] == files[i];
      }
    }
    forall x | x in FileShas(h, init, read)
      ensures x in FileShas(h, files, read)
    {
      var i :| 0 <= i < |init| && x == h.blob(read(init[i].path));
      assert init[i] == files[i];
    }
  }

  /**
   * Lines 106-141: commit `tree` on top of `head`, move `ref` to the new
   * commit and report `count` files.
   */
  function CommitTree(s: RemoteState, h: Hashes, tree: Sha, head: Sha, ref: string, repo: string,
                      message: string, count: nat): (Result<CommitResult, CommitError>, RemoteState)
  {
    var (commit, withCommit) := CreateCommitOn(s, h, message, tree, [head]);
    if commit.Err? then (Err(Api(commit.error)), withCommit)
    else
      var (updated, t) := UpdateRefOn(withCommit, ref, commit.value);
      if updated.Err? then (Err(Api(updated.error)), t)
      else (Ok(CommitResult(true, commit.value, message, CommitUrl(repo, commit.value), count)), t)
  }

  /**
   * Lines 68-141: upload the files' blobs, lay them over `baseTree`, then
   * commit the tree on top of `head` and move `ref` to it.
   */
  function Snapshot(s: RemoteState, h: Hashes, files: seq<LocalFile>, read: Path -> Bytes, ref: string,
                    head: Sha, baseTree: Sha, repo: string, message: string): (Result<CommitResult, CommitError>, RemoteState)
  {
    var (tree, withTree) := CreateTreeOn(AddBlobs(s, h, files, read), h, BlobList(h, files, read), baseTree);
    if tree.Err? then (Err(Api(tree.error)), withTree)
    else CommitTree(withTree, h, tree.value, head, ref, repo, message, |files|)
  }

  /**
   * `autoCommitAndPush` (lines 21-152): the result and the remote
   * afterwards, in the order of the source's checks and calls.
   */
  function Push(s: RemoteState, h: Hashes, target: LocalTarget, localPath: Path, repo: string,
                branch: string, message: string, read: Path -> Bytes): (Result<CommitResult, CommitError>, RemoteState)
  {
    match target
    case Missing => (Err(PathDoesNotExist(localPath)), s)
    case NotDirectory => (Err(NotADirectory(localPath)), s)
    case Directory(listing) =>
      var files := Walk(localPath, [], listing);
      if files == [] then (Err(NoFilesFound), s)
      else if RefName(branch) !in s.refs then (Err(Api(NotFound)), s)
      else
        var head := s.refs[RefName(branch)];
        if head !in s.commits then (Err(Api(NotFound)), s)
        else Snapshot(s, h, files, read, RefName(branch), head, s.commits[head].tree, repo, message)
  }

  /** A path that does not exist fails before any enumeration or remote call. */
  lemma MissingPathFailsFirst(s: RemoteState, h: Hashes, localPath: Path, repo: string, branch: string,
                              message: string, read: Path -> Bytes)
    ensures Push(s, h, Missing, localPath, repo, branch, message, read) == (Err(PathDoesNotExist(localPath)), s)
  {
  }

  /** An empty enumeration fails with "No files found to commit" before `getRef`: the remote is untouched. */
  lemma NoFilesTouchesNothing(s: RemoteState, h: Hashes, listing: seq<Entry>, localPath: Path, repo: string,
                              branch: string, message: string, read: Path -> Bytes)
    requires Walk(localPath, [], listing) == []
    ensures Push(s, h, Directory(listing), localPath, repo, branch, message, read) == (Err(NoFilesFound), s)
  {
  }

  /** A branch the remote does not have fails before any blob is uploaded. */
  lemma MissingBranchTouchesNothing(s: RemoteState, h: Hashes, target: LocalTarget, localPath: Path, repo: string,
                                    branch: string, message: string, read: Path -> Bytes)
    requires RefName(branch) !in s.refs
    ensures Push(s, h, target, localPath, repo, branch, message, read).1 == s
    ensures Push(s, h, target, localPath, repo, branch, message, read).0.Err?
  {
  }

  /** Only a directory whose walk is not empty, on a branch the remote has, can be committed. */
  lemma SuccessNeedsFilesAndBranch(s: RemoteState, h: Hashes, target: LocalTarget, localPath: Path, repo: string,
                                   branch: string, message: string, read: Path -> Bytes)
    requires Push(s, h, target, localPath, repo, branch, message, read).0.Ok?
    ensures target.Directory? && Walk(localPath, [], target.listing) != [] && RefName(branch) in s.refs
  {
  }

  /**
   * On a consistent remote, a directory with files and an existing branch
   * always commits: the new tree lays the files' blobs, in walk order, over
   * the tree of the branch's head; the new commit has exactly that head as
   * its parent; the branch, and no other ref, moves to it; the result
   * reports its sha, its link and the number of files.
   */
  lemma PushCommitsSnapshot(s: RemoteState, h: Hashes, listing: seq<Entry>, localPath: Path,
                             repo: string, branch: string, message: string, read: Path -> Bytes)
    requires Valid(s)
    requires Walk(localPath, [], listing) != []
    requires RefName(branch) in s.refs
    ensures var (r, t) := Push(s, h, Directory(listing), localPath, repo, branch, message, read);
      var files := Walk(localPath, [], listing);
      var head := s.refs[RefName(branch)];
      var tree := Tree(Some(s.commits[head].tree), BlobList(h, files, read));
      var commit := Commit(message, h.tree(tree), [head]);
      var sha := h.commit(commit);
      && r == Ok(CommitResult(true, sha, message, CommitUrl(repo, sha), |files|))
      && t.refs == s.refs[RefName(branch) := sha]
      && t.commits == s.commits[sha := commit]
      && t.trees == s.trees[h.tree(tree) := tree]
      && t.blobs == AddBlobs(s, h, files, read).blobs
      && (BlobHashInjective(h) ==>
            forall i :: 0 <= i < |files| ==> t.blobs[tree.entries[i].sha] == read(files[i].path))
  {
    var files := Walk(localPath, [], listing);
    var head := s.refs[RefName(branch)];
    SnapshotCommits(s, h, files, read, RefName(branch), head, s.commits[head].tree, repo, message);
    if BlobHashInjective(h) {
      AddBlobsStoresContents(s, h, files, read);
    }
  }

  /** The remote part of a push, from a known head whose tree exists. */
  lemma SnapshotCommits(s: RemoteState, h: Hashes, files: seq<LocalFile>, read: Path -> Bytes,
                         ref: string, head: Sha, baseTree: Sha, repo: string, message: string)
    requires ref in s.refs && head in s.commits && baseTree in s.trees
    ensures var (r, t) := Snapshot(s, h, files, read, ref, head, baseTree, repo, message);
      var tree := Tree(Some(baseTree), BlobList(h, files, read));
      var commit := Commit(message, h.tree(tree), [head]);
      var sha := h.commit(commit);
      && r == Ok(CommitResult(true, sha, message, CommitUrl(repo, sha), |files|))
      && t.refs == s.refs[ref := sha]
      && t.commits == s.commits[sha := commit]
      && t.trees == s.trees[h.tree(tree) := tree]
      && t.blobs == AddBlobs(s, h, files, read).blobs
  {
    var withBlobs := AddBlobs(s, h, files, read);
    var entries := BlobList(h, files, read);
    forall e | e in entries
      ensures e.sha in withBlobs.blobs
    {
      var i :| 0 <= i < |entries| && entries[i] == e;
    }
  }

  /**
   * Three files, one of them `.env`: two blobs are committed, in listing
   * order, and the new commit's only parent is the head read from the branch.
   */
  lemma ThreeFilesOneIgnored(s: RemoteState, h: Hashes, localPath: Path, repo: string, branch: string,
                             message: string, read: Path -> Bytes)
    requires Valid(s)
    requires RefName(branch) in s.refs
    ensures var listing := [FileEntry("a.js"), FileEntry(".env"), FileEntry("b.js")];
      var (r, t) := Push(s, h, Directory(listing), localPath, repo, branch, message, read);
      var head := s.refs[RefName(branch)];
      var tree := Tree(Some(s.commits[head].tree),
                       [TreeEntry("a.js", FileMode, BlobType, h.blob(read(localPath + ["a.js"]))),
                        TreeEntry("b.js", FileMode, BlobType, h.blob(read(localPath + ["b.js"])))]);
      var commit := Commit(message, h.tree(tree), [head]);
      && r == Ok(CommitResult(true, h.commit(commit), message, CommitUrl(repo, h.commit(commit)), 2))
      && t.commits == s.commits[h.commit(commit) := commit]
      && t.trees == s.trees[h.tree(tree) := tree]
  {
    var listing := [FileEntry("a.js"), FileEntry(".env"), FileEntry("b.js")];
    TwoBlobEntries(h, localPath, read);
    PushCommitsSnapshot(s, h, listing, localPath, repo, branch, message, read);
  }

  /** The files and tree entries of the listing above. */
  lemma TwoBlobEntries(h: Hashes, localPath: Path, read: Path -> Bytes)
    ensures var files := Walk(localPath, [], [FileEntry("a.js"), FileEntry(".env"), FileEntry("b.js")]);
      && |files| == 2
      && BlobList(h, files, read)
         == [TreeEntry("a.js", FileMode, BlobType, h.blob(read(localPath + ["a.js"]))),
             TreeEntry("b.js", FileMode, BlobType, h.blob(read(localPath + ["b.js"])))]
  {
    ThreeFileListing(localPath);
    var files := [LocalFile(localPath + ["a.js"], "a.js"), LocalFile(localPath + ["b.js"], "b.js")];
    assert BlobList(h, files, read)[0] == TreeEntry("a.js", FileMode, BlobType, h.blob(read(localPath + ["a.js"])));
    assert BlobList(h, files, read)[1] == TreeEntry("b.js", FileMode, BlobType, h.blob(read(localPath + ["b.js"])));
  }

  /** `.env` is skipped and the other two files keep their listing order. */
  lemma ThreeFileListing(localPath: Path)
    ensures Walk(localPath, [], [FileEntry("a.js"), FileEntry(".env"), FileEntry("b.js")])
         == [LocalFile(localPath + ["a.js"], "a.js"), LocalFile(localPath + ["b.js"], "b.js")]
  {
    assert !Ignored("a.js") && Ignored(".env") && !Ignored("b.js");
    IgnoredFileSkipped(localPath, "a.js", ".env", "b.js");
    PlainRelativePath("a.js");
    PlainRelativePath("b.js");
    assert FileAt(localPath, [], ["a.js"]) == LocalFile(localPath + ["a.js"], "a.js") by {
      assert localPath + [] + ["a.js"] == localPath + ["a.js"] && [] + ["a.js"] == ["a.js"];
    }
    assert FileAt(localPath, [], ["b.js"]) == LocalFile(localPath + ["b.js"], "b.js") by {
      assert localPath + [] + ["b.js"] == localPath + ["b.js"] && [] + ["b.js"] == ["b.js"];
    }
  }

  /** A name without backslashes is its own relative path. */
  lemma PlainRelativePath(name: string)
    requires forall i :: 0 <= i < |name| ==> name[i] != '\\'
    ensures RelativePath([name]) == name
  {
  }

  /** Every outcome of the call leaves a consistent remote consistent. */
  lemma PushKeepsValid(s: RemoteState, h: Hashes, target: LocalTarget, localPath: Path, repo: string,
                       branch: string, message: string, read: Path -> Bytes)
    requires Valid(s)
    ensures Valid(Push(s, h, target, localPath, repo, branch, message, read).1)
  {
    if target.Directory? {
      var files := Walk(localPath, [], target.listing);
      if files != [] && RefName(branch) in s.refs && s.refs[RefName(branch)] in s.commits {
        var head := s.refs[RefName(branch)];
        SnapshotKeepsValid(s, h, files, read, RefName(branch), head, s.commits[head].tree, repo, message);
      }
    }
  }

  lemma SnapshotKeepsValid(s: RemoteState, h: Hashes, files: seq<LocalFile>, read: Path -> Bytes,
                           ref: string, head: Sha, baseTree: Sha, repo: string, message: string)
    requires Valid(s)
    ensures Valid(Snapshot(s, h, files, read, ref, head, baseTree, repo, message).1)
  {
    var withBlobs := AddBlobs(s, h, files, read);
    AddBlobsKeepsValid(s, h, files, read);
    var entries := BlobList(h, files, read);
    CreateTreeKeepsValid(withBlobs, h, entries, baseTree);
    var (tree, withTree) := CreateTreeOn(withBlobs, h, entries, baseTree);
    if tree.Ok? {
      CommitTreeKeepsValid(withTree, h, tree.value, head, ref, repo, message, |files|);
    }
  }

  lemma CommitTreeKeepsValid(s: RemoteState, h: Hashes, tree: Sha, head: Sha, ref: string, repo: string,
                             message: string, count: nat)
    requires Valid(s)
    ensures Valid(CommitTree(s, h, tree, head, ref, repo, message, count).1)
  {
    CreateCommitKeepsValid(s, h, message, tree, [head]);
    var (commit, withCommit) := CreateCommitOn(s, h, message, tree, [head]);
    if commit.Ok? {
      UpdateRefKeepsValid(withCommit, ref, commit.value);
    }
  }

  /**
   * With a collision-free blob hash, the blob stored under each file's sha
   * holds exactly that file's bytes.
   */
  lemma {:induction false} AddBlobsStoresContents(s: RemoteState, h: Hashes, files: seq<LocalFile>, read: Path -> Bytes)
    requires BlobHashInjective(h)
    ensures var r := AddBlobs(s, h, files, read);
      forall i :: 0 <= i < |files| ==> r.blobs[h.blob(read(files[i].path))] == read(files[i].path)
    decreases files
  {
    if files != [] {
      var init := files[..|files| - 1];
      AddBlobsStoresContents(s, h, init, read);
      forall i | 0 <= i < |init|
        ensures init[i] == files[i]
      {
      }
    }
  }

  /** A blob whose sha is not one of the files' shas keeps its content. */
  lemma {:induction false} AddBlobsKeepsOthers(s: RemoteState, h: Hashes, files: seq<LocalFile>, read: Path -> Bytes, k: Sha)
    requires k in s.blobs
    requires forall i :: 0 <= i < |files| ==> h.blob(read(files[i].path)) != k
    ensures AddBlobs(s, h, files, read).blobs[k] == s.blobs[k]
    decreases files
  {
    if files != [] {
      var init := files[..|files| - 1];
      assert forall i :: 0 <= i < |init| ==> init[i] == files[i];
      AddBlobsKeepsOthers(s, h, init, read, k);
    }
  }

  lemma {:induction false} AddBlobsKeepsValid(s: RemoteState, h: Hashes, files: seq<LocalFile>, read: Path -> Bytes)
    requires Valid(s)
    ensures Valid(AddBlobs(s, h, files, read))
    decreases files
  {
    if files != [] {
      AddBlobsKeepsValid(s, h, files[..|files| - 1], read);
    }
  }

  // ---------------------------------------------------------------------
  // The remote repository and the call itself

  class Remote {
    var refs: map<string, Sha>
    var commits: map<Sha, Commit>
    var trees: map<Sha, Tree>
    var blobs: map<Sha, Bytes>
    const hashes: Hashes

    function State(): RemoteState
      reads this
    {
      RemoteState(refs, commits, trees, blobs)
    }

    constructor(s: RemoteState, hashes: Hashes)
      ensures State() == s && this.hashes == hashes
    {
      refs, commits, trees, blobs := s.refs, s.commits, s.trees, s.blobs;
      this.hashes := hashes;
    }

    /** `git.getRef`. */
    method GetRef(ref: string) returns (r: Result<Sha, ApiError>)
      ensures r == if ref in refs then Ok(refs[ref]) else Err(NotFound)
    {
      if ref in refs {
        r := Ok(refs[ref]);
      } else {
        r := Err(NotFound);
      }
    }

    /** `git.getCommit`. */
    method GetCommit(sha: Sha) returns (r: Result<Commit, ApiError>)
      ensures r == if sha in commits then Ok(commits[sha]) else Err(NotFound)
    {
      if sha in commits {
        r := Ok(commits[sha]);
      } else {
        r := Err(NotFound);
      }
    }

    method CreateBlob(content: Bytes) returns (sha: Sha)
      modifies this
      ensures (sha, State()) == CreateBlobOn(old(State()), hashes, content)
    {
      sha := hashes.blob(content);
      blobs := blobs[sha := content];
    }

    method CreateTree(entries: seq<TreeEntry>, baseTree: Sha) returns (r: Result<Sha, ApiError>)
      modifies this
      ensures (r, State()) == CreateTreeOn(old(State()), hashes, entries, baseTree)
    {
      var tree := Tree(Some(baseTree), entries);
      if baseTree in trees && forall e :: e in entries ==> e.sha in blobs {
        r := Ok(hashes.tree(tree));
        trees := trees[hashes.tree(tree) := tree];
      } else {
        r := Err(Unprocessable);
      }
    }

    method CreateCommit(message: string, tree: Sha, parents: seq<Sha>) returns (r: Result<Sha, ApiError>)
      modifies this
      ensures (r, State()) == CreateCommitOn(old(State()), hashes, message, tree, parents)
    {
      var commit := Commit(message, tree, parents);
      if tree in trees && forall p :: p in parents ==> p in commits {
        r := Ok(hashes.commit(commit));
        commits := commits[hashes.commit(commit) := commit];
      } else {
        r := Err(Unprocessable);
      }
    }

    method UpdateRef(ref: string, sha: Sha) returns (r: Result<(), ApiError>)
      modifies this
      ensures (r, State()) == UpdateRefOn(old(State()), ref, sha)
    {
      if ref in refs && sha in commits {
        r := Ok(());
        refs := refs[ref := sha];
      } else {
        r := Err(Unprocessable);
      }
    }
  }

  /** `autoCommitAndPush({localPath, repoName, branchName, message})` (lines 21-152). */
  method AutoCommitAndPush(remote: Remote, target: LocalTarget, localPath: Path, repoName: string,
                           branchName: string, message: string, read: Path -> Bytes)
    returns (r: Result<CommitResult, CommitError>)
    modifies remote
    ensures (r, remote.State()) == Push(old(remote.State()), remote.hashes, target, localPath, repoName, branchName, message, read)
  {
    if target.Missing? {
      return Err(PathDoesNotExist(localPath));
    }
    if target.NotDirectory? {
      return Err(NotADirectory(localPath));
    }
    assert localPath[|localPath|..] == [];
    var files := GetAllFiles(localPath, target.listing, [], localPath);
    assert files == Walk(localPath, [], target.listing);
    if |files| == 0 {
      return Err(NoFilesFound);
    }

    var ref := RefName(branchName);
    var refData := remote.GetRef(ref);
    if refData.Err? {
      return Err(Api(refData.error));
    }
    var currentCommitSha := refData.value;
    var commitData := remote.GetCommit(currentCommitSha);
    if commitData.Err? {
      return Err(Api(commitData.error));
    }
    var baseTreeSha := commitData.value.tree;
    assert remote.State() == old(remote.State());
    assert ref in old(remote.State()).refs && old(remote.State()).refs[ref] == currentCommitSha;
    assert currentCommitSha in old(remote.State()).commits && old(remote.State()).commits[currentCommitSha].tree == baseTreeSha;
    ghost var pushed := Snapshot(old(remote.State()), remote.hashes, files, read, ref, currentCommitSha, baseTreeSha,
                                 repoName, message);
    assert Push(old(remote.State()), remote.hashes, target, localPath, repoName, branchName, message, read) == pushed;

    var blobs := UploadBlobs(remote, files, read);
    var newTree := remote.CreateTree(blobs, baseTreeSha);
    if newTree.Err? {
      assert pushed == (Err(Api(newTree.error)), remote.State());
      return Err(Api(newTree.error));
    }
    assert pushed == CommitTree(remote.State(), remote.hashes, newTree.value, currentCommitSha, ref, repoName, message, |files|);
    r := CommitAndMoveRef(remote, newTree.value, currentCommitSha, ref, repoName, message, |files|);
  }

  /** Lines 68-91: one `createBlob` per file, in order, collecting the tree entries. */
  method UploadBlobs(remote: Remote, files: seq<LocalFile>, read: Path -> Bytes) returns (blobs: seq<TreeEntry>)
    modifies remote
    ensures blobs == BlobList(remote.hashes, files, read)
    ensures remote.State() == AddBlobs(old(remote.State()), remote.hashes, files, read)
  {
    blobs := [];
    for i := 0 to |files|
      invariant blobs == BlobList(remote.hashes, files[..i], read)
      invariant remote.State() == AddBlobs(old(remote.State()), remote.hashes, files[..i], read)
    {
      var file := files[i];
      var content := read(file.path);
      assert files[..i + 1][..i] == files[..i];
      var blobSha := remote.CreateBlob(content);
      blobs := blobs + [TreeEntry(file.relativePath, FileMode, BlobType, blobSha)];
    }
    assert files[..|files|] == files;
  }

  /** Lines 106-141: commit the new tree on top of the head, move the branch and report. */
  method CommitAndMoveRef(remote: Remote, tree: Sha, head: Sha, ref: string, repoName: string,
                          message: string, count: nat) returns (r: Result<CommitResult, CommitError>)
    modifies remote
    ensures (r, remote.State()) == CommitTree(old(remote.State()), remote.hashes, tree, head, ref, repoName, message, count)
  {
    var newCommit := remote.CreateCommit(message, tree, [head]);
    if newCommit.Err? {
      return Err(Api(newCommit.error));
    }
    var updated := remote.UpdateRef(ref, newCommit.value);
    if updated.Err? {
      return Err(Api(updated.error));
    }
    r := Ok(CommitResult(true, newCommit.value, message, CommitUrl(repoName, newCommit.value), count));
  }
}

=== FILE: paths.dfy ===
/**
 * File-system paths as sequences of segments. `path.join(a, b)` is modelled
 * as concatenation of the segment sequences; no `.`/`..` resolution.
 */
module Paths {

  type Path = seq<string>

  /** The non-empty prefixes of `p`: every directory `mkdir -p p` creates. */
  function Prefixes(p: Path): set<Path> {
    set k | 1 <= k <= |p| :: p[..k]
  }

  /** `q` is created by `mkdir -p p` exactly when it is a non-empty prefix of `p`. */
  lemma PrefixesSpec(p: Path, q: Path)
    ensures q in Prefixes(p) <==> 0 < |q| <= |p| && q == p[..|q|]
  {
    if 0 < |q| <= |p| && q == p[..|q|] {
      assert p[..|q|] in Prefixes(p);
    }
  }

  /** The directory holding `p` (`path.dirname`); the empty path is its own parent. */
  function Parent(p: Path): (r: Path)
    ensures p != [] ==> r + [p[|p| - 1]] == p
    ensures p == [] ==> r == []
  {
    if p == [] then [] else p[..|p| - 1]
  }
}

=== FILE: response_text.dfy ===
/**
 * Cleaning of the completion text and extraction of the JSON object span
 * (McpDay/tools/generate-code.js, lines 91-110): trim, strip one leading
 * fence ("```json" or "```"), strip one trailing fence, trim again, then take
 * the leftmost-greedy match of the pattern `\{[\s\S]*\}`.
 */
module ResponseText {
  import opened Wrappers

  /**
   * The code points `String.prototype.trim` removes: ECMAScript WhiteSpace
   * (tab, vertical tab, form feed, the space separators and the byte order
   * mark) and LineTerminator.
   */
  predicate IsTrimmable(c: char) {
    || c == '\t' || c == '\n' || c == '\U{000B}' || c == '\U{000C}' || c == '\r'
    || c == ' ' || c == '\U{00A0}' || c == '\U{1680}'
    || ('\U{2000}' <= c <= '\U{200A}')
    || c == '\U{2028}' || c == '\U{2029}' || c == '\U{202F}' || c == '\U{205F}'
    || c == '\U{3000}' || c == '\U{FEFF}'
  }

  /** Position `i` of `s` holds a trimmable character. */
  predicate BlankAt(s: string, i: int) {
    0 <= i < |s| && IsTrimmable(s[i])
  }

  ghost predicate AllTrimmable(s: string) {
    forall i :: 0 <= i < |s| ==> BlankAt(s, i)
  }

  /** Number of trimmable characters at the start of `s`. */
  function LeadingCount(s: string): (k: nat)
    ensures k <= |s|
    ensures forall i :: 0 <= i < k ==> BlankAt(s, i)
    ensures k < |s| ==> !BlankAt(s, k)
  {
    if |s| > 0 && IsTrimmable(s[0]) then
      var k := 1 + LeadingCount(s[1..]);
      assert forall i :: 1 <= i < |s| ==> BlankAt(s, i) == BlankAt(s[1..], i - 1);
      k
    else 0
  }

  /** Number of trimmable characters at the end of `s`. */
  function TrailingCount(s: string): (k: nat)
    ensures k <= |s|
    ensures forall i :: |s| - k <= i < |s| ==> BlankAt(s, i)
    ensures k < |s| ==> !BlankAt(s, |s| - 1 - k)
  {
    if |s| > 0 && IsTrimmable(s[|s| - 1]) then
      var k := 1 + TrailingCount(s[..|s| - 1]);
      assert forall i :: 0 <= i < |s| - 1 ==> BlankAt(s, i) == BlankAt(s[..|s| - 1], i);
      k
    else 0
  }

  /**
   * `r` sits at offset `a` of `s` and everything of `s` before and after it
   * is trimmable.
   */
  ghost predicate PaddedAt(s: string, r: string, a: int) {
    && 0 <= a <= |s| - |r|
    && r == s[a..a + |r|]
    && (forall i :: 0 <= i < a ==> BlankAt(s, i))
    && (forall i :: a + |r| <= i < |s| ==> BlankAt(s, i))
  }

  /** `r` neither starts nor ends with a trimmable character. */
  predicate IsTrimmed(r: string) {
    r == [] || (!BlankAt(r, 0) && !BlankAt(r, |r| - 1))
  }

  /**
   * `r` is `s` with its leading and trailing whitespace removed: a
   * contiguous piece of `s`, everything around it trimmable, and it neither
   * starts nor ends with a trimmable character.
   */
  ghost predicate IsTrimOf(s: string, r: string) {
    (exists a :: PaddedAt(s, r, a)) && IsTrimmed(r)
  }

  /** `String.prototype.trim`. */
  function Trim(s: string): string
  {
    var a := LeadingCount(s);
    if a == |s| then [] else s[a..|s| - TrailingCount(s)]
  }

  /** `Trim` removes exactly the leading and trailing whitespace. */
  lemma TrimSpec(s: string)
    ensures IsTrimOf(s, Trim(s))
  {
    var a := LeadingCount(s);
    if a == |s| {
      assert PaddedAt(s, [], a);
    } else {
      var b := |s| - TrailingCount(s);
      assert !BlankAt(s, a);
      var r := s[a..b];
      assert BlankAt(r, 0) == BlankAt(s, a) && BlankAt(r, |r| - 1) == BlankAt(s, b - 1);
      assert PaddedAt(s, r, a);
    }
  }

  /** Trimming has exactly one result: any `r` with the trim property is `Trim(s)`. */
  lemma TrimUnique(s: string, r: string)
    requires IsTrimOf(s, r)
    ensures r == Trim(s)
  {
    var a :| PaddedAt(s, r, a);
    PaddedBounds(s, r, a);
  }

  /** The offset and the end of a trimmed piece are fixed by the counts of whitespace. */
  lemma PaddedBounds(s: string, r: string, a: int)
    requires PaddedAt(s, r, a) && IsTrimmed(r)
    ensures r == [] ==> LeadingCount(s) == |s|
    ensures r != [] ==> a == LeadingCount(s) < |s| && a + |r| == |s| - TrailingCount(s)
  {
    if r != [] {
      assert BlankAt(r, 0) == BlankAt(s, a);
      assert BlankAt(r, |r| - 1) == BlankAt(s, a + |r| - 1);
    }
  }

  /** Trimming twice is trimming once. */
  lemma TrimIdempotent(s: string)
    ensures Trim(Trim(s)) == Trim(s)
  {
    var t := Trim(s);
    TrimSpec(s);
    assert PaddedAt(t, t, 0);
    TrimUnique(t, t);
  }

  /** Whitespace around a trimmed core is exactly what `trim` removes. */
  lemma TrimPadded(lead: string, core: string, trail: string)
    requires AllTrimmable(lead) && AllTrimmable(trail) && IsTrimmed(core)
    ensures Trim(lead + core + trail) == core
  {
    var s := lead + core + trail;
    assert forall i :: 0 <= i < |lead| ==> BlankAt(s, i) == BlankAt(lead, i);
    assert forall i :: |lead| + |core| <= i < |s| ==> BlankAt(s, i) == BlankAt(trail, i - |lead| - |core|);
    assert PaddedAt(s, core, |lead|);
    TrimUnique(s, core);
  }

  const Fence: string := "```"
  const JsonFence: string := "```json"

  /** `s.startsWith(p)`. */
  predicate StartsWith(s: string, p: string) {
    |p| <= |s| && s[..|p|] == p
  }

  /** `s.endsWith(p)`. */
  predicate EndsWith(s: string, p: string) {
    |p| <= |s| && s[|s| - |p|..] == p
  }

  /**
   * Lines 93-97: remove "```json" if the text starts with it, otherwise
   * "```" if it starts with that; only one fence is ever removed.
   */
  function StripLeadingFence(s: string): string
  {
    if StartsWith(s, JsonFence) then s[7..]
    else if StartsWith(s, Fence) then s[3..]
    else s
  }

  /**
   * Only a prefix is removed, of 7 characters exactly when the text starts
   * with "```json", of 3 exactly when it starts with "```" but not
   * "```json", and of none otherwise.
   */
  lemma StripLeadingFenceSpec(s: string)
    ensures var r := StripLeadingFence(s);
      && |s| - |r| in {0, 3, 7}
      && r == s[|s| - |r|..]
      && (|s| - |r| == 7 <==> StartsWith(s, JsonFence))
      && (|s| - |r| == 3 <==> StartsWith(s, Fence) && !StartsWith(s, JsonFence))
  {
    if StartsWith(s, JsonFence) {
      assert s[..3] == s[..7][..3];
    }
  }

  /** Lines 99-101: remove one "```" from the end, if it is there. */
  function StripTrailingFence(s: string): string
  {
    if EndsWith(s, Fence) then s[..|s| - 3] else s
  }

  /** Only a suffix is removed: 3 characters exactly when the text ends with "```". */
  lemma StripTrailingFenceSpec(s: string)
    ensures var r := StripTrailingFence(s);
      && |s| - |r| in {0, 3}
      && r == s[..|r|]
      && (|s| - |r| == 3 <==> EndsWith(s, Fence))
  {
  }

  /** Lines 91-103: the cleaned text. */
  function Clean(text: string): string
  {
    Trim(StripTrailingFence(StripLeadingFence(Trim(text))))
  }

  /**
   * The cleaned text is trimmed last: it neither starts nor ends with
   * whitespace, and trimming it again changes nothing.
   */
  lemma CleanIsTrimmed(text: string)
    ensures IsTrimmed(Clean(text))
    ensures Trim(Clean(text)) == Clean(text)
  {
    TrimSpec(StripTrailingFence(StripLeadingFence(Trim(text))));
    TrimIdempotent(StripTrailingFence(StripLeadingFence(Trim(text))));
  }

  /**
   * Only one leading fence is stripped: when the text starts with two
   * fences, the cleaned text still starts with the second one.
   */
  lemma OneLeadingFenceOnly(body: string)
    requires body != [] && IsTrimmed(body) && body[|body| - 1] != '`'
    ensures Clean(Fence + Fence + body) == Fence + body
  {
    var u := Fence + body;
    var t := Fence + u;
    assert t == Fence + Fence + body;
    FencedIsTrimmed(u);
    FencedIsTrimmed(t);
    TrimmedIsFixed(t);
    StripOneFence(u);
    assert !EndsWith(u, Fence) by { assert u[|u| - 3..][2] == u[|u| - 1]; }
    TrimmedIsFixed(u);
  }

  /** A text that does not start or end with whitespace is left alone by `trim`. */
  lemma TrimmedIsFixed(t: string)
    requires IsTrimmed(t)
    ensures Trim(t) == t
  {
    TrimPadded([], t, []);
    assert [] + t + [] == t;
  }

  /** A fence in front of a trimmed, non-empty text gives a trimmed text. */
  lemma FencedIsTrimmed(body: string)
    requires body != [] && IsTrimmed(body)
    ensures IsTrimmed(Fence + body)
    ensures (Fence + body)[|Fence + body| - 1] == body[|body| - 1]
  {
  }

  /** A fence followed by something other than "json" is stripped on its own. */
  lemma StripOneFence(u: string)
    requires StartsWith(u, Fence)
    ensures StripLeadingFence(Fence + u) == u
  {
    var t := Fence + u;
    assert t[3] == '`';
    assert !StartsWith(t, JsonFence) by { assert |JsonFence| <= |t| ==> t[..7][3] == t[3]; }
    assert StartsWith(t, Fence) by { assert t[..3] == Fence; }
    assert t[3..] == u;
  }

  /** `m` starts with `{` and ends with `}`. */
  predicate IsBraced(m: string) {
    |m| >= 2 && m[0] == '{' && m[|m| - 1] == '}'
  }

  /** Positions `i < j` hold a `{` and a `}`: a match of `\{[\s\S]*\}`. */
  predicate IsObjectSpan(s: string, i: int, j: int) {
    i < j && CharAt(s, i, '{') && CharAt(s, j, '}')
  }

  /** Position `i` of `s` holds `c`. */
  predicate CharAt(s: string, i: int, c: char) {
    0 <= i < |s| && s[i] == c
  }

  /** Index of the first occurrence of `c` in `s`. */
  function IndexOf(s: string, c: char): (r: Option<nat>)
    ensures r.None? ==> forall k :: !CharAt(s, k, c)
    ensures r.Some? ==> CharAt(s, r.value, c) && forall k :: k < r.value ==> !CharAt(s, k, c)
  {
    if |s| == 0 then None
    else if s[0] == c then Some(0)
    else
      var r := IndexOf(s[1..], c);
      assert forall k :: 1 <= k ==> CharAt(s, k, c) == CharAt(s[1..], k - 1, c);
      if r.None? then None else Some(r.value + 1)
  }

  /** Index of the last occurrence of `c` in `s`. */
  function LastIndexOf(s: string, c: char): (r: Option<nat>)
    ensures r.None? ==> forall k :: !CharAt(s, k, c)
    ensures r.Some? ==> CharAt(s, r.value, c) && forall k :: r.value < k ==> !CharAt(s, k, c)
  {
    if |s| == 0 then None
    else if s[|s| - 1] == c then Some(|s| - 1)
    else
      assert forall k :: k < |s| - 1 ==> CharAt(s, k, c) == CharAt(s[..|s| - 1], k, c);
      LastIndexOf(s[..|s| - 1], c)
  }

  /**
   * `s.match(/\{[\s\S]*\}/)`: the regular expression engine tries the
   * leftmost start first and the longest body first, so the match runs from
   * the first `{` that has a `}` after it to the last `}`. There is no match
   * exactly when no `{` precedes a `}`.
   */
  function MatchObject(s: string): (r: Option<string>)
    ensures r.None? <==> forall i, j :: !IsObjectSpan(s, i, j)
    ensures r.Some? ==> IsBraced(r.value)
    ensures r.Some? ==> exists i, j ::
      && IsObjectSpan(s, i, j)
      && r.value == s[i..j + 1]
      && (forall i', j' :: IsObjectSpan(s, i', j') ==> i <= i')
      && (forall j' :: IsObjectSpan(s, i, j') ==> j' <= j)
  {
    var first := IndexOf(s, '{');
    var last := LastIndexOf(s, '}');
    if first.Some? && last.Some? && first.value < last.value then
      var i, j := first.value, last.value;
      assert IsObjectSpan(s, i, j);
      Some(s[i..j + 1])
    else
      None
  }

  /**
   * Commentary around the object is ignored: text without braces before an
   * object and text without closing braces after it do not change the match.
   */
  lemma MatchIgnoresSurroundings(prefix: string, obj: string, suffix: string)
    requires '{' !in prefix && '}' !in prefix && '}' !in suffix
    requires |obj| >= 2 && obj[0] == '{' && obj[|obj| - 1] == '}'
    ensures MatchObject(prefix + obj + suffix) == Some(obj)
  {
    var s := prefix + obj + suffix;
    var i, j := |prefix|, |prefix| + |obj| - 1;
    assert s[i] == obj[0] && s[j] == obj[|obj| - 1];
    assert IsObjectSpan(s, i, j);
    forall k | 0 <= k < i ensures !CharAt(s, k, '{') {
      assert s[k] == prefix[k];
    }
    forall k | j < k ensures !CharAt(s, k, '}') {
      if k < |s| { assert s[k] == suffix[k - |prefix| - |obj|]; }
    }
    var m := MatchObject(s).value;
    var i0, j0 :| && IsObjectSpan(s, i0, j0) && m == s[i0..j0 + 1]
                  && (forall i', j' :: IsObjectSpan(s, i', j') ==> i0 <= i')
                  && (forall j' :: IsObjectSpan(s, i0, j') ==> j' <= j0);
    assert i0 <= i;
    assert i0 == i;
    assert j <= j0;
    assert j0 == j;
    assert s[i..j + 1] == obj;
  }

  /**
   * Lines 91-110: the JSON text handed to the parser, if any: a braced
   * piece of the cleaned text; there is none exactly when the cleaned text
   * has no `{` before a `}`.
   */
  function ExtractJson(text: string): (r: Option<string>)
    ensures r.None? <==> forall i, j :: !IsObjectSpan(Clean(text), i, j)
    ensures r.Some? ==> IsBraced(r.value)
  {
    MatchObject(Clean(text))
  }

  /** A "```json" ... "```" wrapper loses both of its fences. */
  lemma FencesStripped(body: string)
    ensures StripTrailingFence(StripLeadingFence(JsonFence + body + Fence)) == body
  {
    var core := JsonFence + body + Fence;
    assert core[..7] == JsonFence;
    assert core[7..] == body + Fence;
    var afterLead := body + Fence;
    assert afterLead[|afterLead| - 3..] == Fence;
    assert afterLead[..|afterLead| - 3] == body;
  }

  /** The cleaning steps applied to a fenced response. */
  lemma CleanFenced(lead: string, inner1: string, obj: string, inner2: string, trail: string)
    requires AllTrimmable(lead) && AllTrimmable(inner1) && AllTrimmable(inner2) && AllTrimmable(trail)
    requires |obj| >= 2 && obj[0] == '{' && obj[|obj| - 1] == '}'
    ensures Clean(lead + JsonFence + inner1 + obj + inner2 + Fence + trail) == obj
  {
    var text := lead + JsonFence + inner1 + obj + inner2 + Fence + trail;
    var body := inner1 + obj + inner2;
    var core := JsonFence + body + Fence;
    assert IsTrimmed(core) by {
      assert core[0] == '`' && core[|core| - 1] == '`';
    }
    assert text == lead + core + trail;
    assert Trim(text) == core by { TrimPadded(lead, core, trail); }
    assert StripTrailingFence(StripLeadingFence(core)) == body by { FencesStripped(body); }
    assert Trim(body) == obj by {
      assert IsTrimmed(obj) by {
        assert obj[0] == '{' && obj[|obj| - 1] == '}';
      }
      TrimPadded(inner1, obj, inner2);
    }
  }

  /**
   * The common fenced response: a "```json" fence, the object, a closing
   * fence, each possibly surrounded by whitespace and line breaks, yields
   * the object itself.
   */
  lemma FencedObjectIsExtracted(lead: string, inner1: string, obj: string, inner2: string, trail: string)
    requires AllTrimmable(lead) && AllTrimmable(inner1) && AllTrimmable(inner2) && AllTrimmable(trail)
    requires |obj| >= 2 && obj[0] == '{' && obj[|obj| - 1] == '}'
    ensures ExtractJson(lead + JsonFence + inner1 + obj + inner2 + Fence + trail) == Some(obj)
  {
    CleanFenced(lead, inner1, obj, inner2, trail);
    MatchIgnoresSurroundings([], obj, []);
    assert [] + obj + [] == obj;
  }

  /**
   * Commentary before and after a fenced object: the text does not start
   * with a fence, so no fence is stripped, and the greedy match still picks
   * out exactly the object when the commentary holds no braces.
   */
  lemma CommentedFenceIsExtracted(prefix: string, mid1: string, obj: string, mid2: string, suffix: string)
    requires prefix != [] && !BlankAt(prefix, 0) && prefix[0] != '`'
    requires suffix != [] && !BlankAt(suffix, |suffix| - 1) && suffix[|suffix| - 1] != '`'
    requires '{' !in prefix && '}' !in prefix && '}' !in suffix
    requires '{' !in mid1 && '}' !in mid1 && '}' !in mid2
    requires IsBraced(obj)
    ensures ExtractJson(prefix + JsonFence + mid1 + obj + mid2 + Fence + suffix) == Some(obj)
  {
    var pre, post := prefix + JsonFence + mid1, mid2 + Fence + suffix;
    var text := pre + obj + post;
    assert prefix + JsonFence + mid1 + obj + mid2 + Fence + suffix == text;
    assert '{' !in pre && '}' !in pre && '}' !in post by {
      assert forall c :: c in pre ==> c in prefix || c in JsonFence || c in mid1;
      assert forall c :: c in post ==> c in mid2 || c in Fence || c in suffix;
    }
    assert text[0] == prefix[0] && text[|text| - 1] == suffix[|suffix| - 1];
    assert IsTrimmed(text) by {
      assert BlankAt(text, 0) == BlankAt(prefix, 0);
      assert BlankAt(text, |text| - 1) == BlankAt(suffix, |suffix| - 1);
    }
    UnfencedIsClean(text);
    MatchIgnoresSurroundings(pre, obj, post);
  }

  /** A trimmed text that neither starts nor ends with a backtick is already clean. */
  lemma UnfencedIsClean(text: string)
    requires text != [] && IsTrimmed(text) && text[0] != '`' && text[|text| - 1] != '`'
    ensures Clean(text) == text
  {
    TrimmedIsFixed(text);
    assert !StartsWith(text, JsonFence) by { assert |JsonFence| <= |text| ==> text[..7][0] == text[0]; }
    assert !StartsWith(text, Fence) by { assert |Fence| <= |text| ==> text[..3][0] == text[0]; }
    assert !EndsWith(text, Fence) by { assert |Fence| <= |text| ==> text[|text| - 3..][2] == text[|text| - 1]; }
  }
}

=== FILE: wrappers.dfy ===
/** Plain `Option` and `Result` wrappers, shared by the whole model. */
module Wrappers {

  /** A value that may be absent (JavaScript's `undefined`). */
  datatype Option<+T> = None | Some(value: T)

  /** The outcome of an operation that may throw: `Err` carries the error. */
  datatype Result<+T, +E> = Ok(value: T) | Err(error: E)
}
